=== FILE: README.md ===
# Centring the binary epoch of a pulsar timing model

`centre_binary_epochs.py` reads a pulsar `.par` file. It moves the binary
reference epoch (`T0`, or `TASC` for ELL1-style models) by a whole number of
orbital periods so that it lies close to a target epoch, then writes the
file back with only that one line changed. The target epoch is given on the
command line, or is the midpoint of `START` and `FINISH`.

The model has three parts, and one Dafny module (plus a facts module) for
each:

- **Line parsing and table building** (`read_par`, `process_param_line`,
  `is_numeric`):
  - `Tokens` models Python's `str.split()`;
  - `DecimalText` is an explicit grammar for the decimal tokens `Decimal()`
    accepts, valued as exact rationals, plus the `D`→`E` replacement;
  - `ParamLine` holds the skip rules and `process_param_line`;
  - `ParTable` holds the loop of `read_par`. It is written twice: as a
    specification fold `ReadSpec`, and as the imperative method `ReadPar`
    proved equal to it.
- **Epoch-centring arithmetic** (the script body at lines 127-147), in
  `Centring`:
  - `Centre` resolves the target, the reference-epoch key and the period;
  - it counts whole orbits with `Decimal` floor division, which truncates
    toward zero;
  - it moves the epoch by that many periods, or reports the exception the
    script would raise.
- **Selective rewrite** (`write_updated_par`), in `Rewrite`:
  - the specification function `WriteSpec`;
  - the imperative method `WriteUpdatedPar` proved equal to it.

`CentreScript` chains the three steps as the script does.
`CentreScriptFacts` proves two end-to-end properties:
- only the epoch line changes;
- running the script on its own output reproduces that output, given a
  rendering of decimals that reads back to the same value.

When a `T0` line is followed later by a `TASC` line, the script behaves
oddly, and the model does the same. The stored index points at the `TASC`
line, but the key is `T0`, because `T0` is in the table. The output replaces
the `TASC` line with `T0 <new epoch> 1` and keeps the old `T0` line
unchanged, so `TASC` disappears from the file.

Lines are a `seq<string>`. A table value is `Num(real)` (an exact decimal)
or `Str(string)`. Exceptions are results: `ReadError`, `CentreError` and
`WriteError`, gathered in `ScriptError`.

A floor division would count the orbits by rounding the quotient down.
The script's `//` on `Decimal` values (`Decimal.__floordiv__`) truncates
toward zero instead, and the model does the same (`Centring.Trunc`). `CentringFacts.TruncVersusFloor` states where the
two differ: a negative, non-whole quotient. `CentringFacts.OrbitCount`
shows the effect: with a positive period, for a target before the epoch
and not a whole number of periods away, the epoch moves one period less
far than a floor would move it. With a negative period the same happens
for a target after the epoch.

## Model

| member | source | states |
|---|---|---|
| Tokens.Split | centre_binary_epochs.py:30 | every token is non-empty and holds no whitespace, and there are no more tokens than characters; `SplitJoin` and `SplitEmptyIffAllSpace` below give its inverse and its empty case |
| Tokens.SplitEmptyIffAllSpace | centre_binary_epochs.py:30-33 | a line splits into no tokens exactly when it is whitespace only |
| Tokens.SplitJoin | centre_binary_epochs.py:30 | tokens without whitespace, joined by single spaces and followed by any whitespace tail, split back into exactly those tokens |
| DecimalText.Normalise | centre_binary_epochs.py:64 | the replacement keeps the length and turns every `D` into `E` and nothing else |
| DecimalText.ParseExponent | centre_binary_epochs.py:72 | the exponent part of `Decimal()`'s grammar: accepted exactly when it is an optional sign followed by a non-empty digit string, and then worth those digits in base ten, negated after a `-` |
| DecimalText.ParseDecimal | centre_binary_epochs.py:72 | `Decimal(val_str)`: a token `isdigit()` accepts is numeric, and its value is its digits read in base ten; `PointLiteral`, `PointArithmetic`, `NegativeValue`, `PositiveValue` and `ExponentValue` below give the value of the point, sign and exponent forms |
| DecimalText.IsNumeric | centre_binary_epochs.py:92-100 | `is_numeric`: true exactly when `Decimal()` accepts the text; the empty text is not numeric and every digit string is |
| DecimalFacts.NumericTokenShape | centre_binary_epochs.py:92-100 | a token `is_numeric` accepts holds only digits, signs, points and `e`/`E`, and at least one digit |
| DecimalFacts.ScaleAdd | centre_binary_epochs.py:72 | powers of ten add their exponents: 10^(a+b) = 10^a × 10^b, for any integers |
| DecimalFacts.ShiftedValue | centre_binary_epochs.py:72 | adding e to a literal's exponent multiplies its value by 10^e |
| DecimalFacts.ExponentValue | centre_binary_epochs.py:72 | for an unsigned mantissa m without a marker, `m E x` is numeric exactly when m is a number and x an exponent, and its value is m × 10^x |
| DecimalFacts.DigitsValueAppend | centre_binary_epochs.py:72 | appending digits multiplies the value by ten per digit and adds theirs |
| DecimalFacts.PointLiteral | centre_binary_epochs.py:72 | `I.F` is read exactly: coefficient is all the digits, exponent is minus the count of fraction digits |
| DecimalFacts.PointArithmetic | centre_binary_epochs.py:72 | that literal denotes I + F / 10^\|F\| |
| DecimalFacts.PlainMantissa | centre_binary_epochs.py:72 | with no sign and no exponent marker, a token's literal is its mantissa |
| DecimalFacts.NegativeValue | centre_binary_epochs.py:72 | a leading `-` keeps a token numeric or not, and negates its value |
| DecimalFacts.PositiveValue | centre_binary_epochs.py:72 | a leading `+` keeps both validity and value |
| DecimalFacts.MarkersInterchangeable | centre_binary_epochs.py:64 | tokens that differ only by `D` against `E` normalise to the same text |
| DecimalFacts.NormaliseIdempotent | centre_binary_epochs.py:64 | replacing twice gives the same result as replacing once |
| DecimalFacts.LegacyExponent | centre_binary_epochs.py:86 | `M D X` normalises to `M E X` and has the same decimal value |
| DecimalFacts.ExampleLiteral | centre_binary_epochs.py:72 | `1.23E-5` is kept as the literal 123 × 10^-7 |
| ParamLine.Alias | centre_binary_epochs.py:60-62 | the name `E` becomes `ECC`; every other name is kept |
| ParamLine.ProcessParamLine | centre_binary_epochs.py:55-90 | name aliased; the kind is `s` exactly when the normalised value is not numeric, and then the value is that normalised text; otherwise the value is its exact decimal; the kind is `d` exactly when the token is all digits; the uncertainty is present exactly when there are ≥3 tokens, the last is not `0`/`1` and it is numeric after `D`→`E`, and then it is its value |
| ParamLine.NormalisedDigits | centre_binary_epochs.py:64-73 | the all-digits test gives the same answer before and after `D`→`E` |
| ParamLine.Skipped | centre_binary_epochs.py:33 | a line is skipped exactly when it is whitespace only, starts with `#` or `C`, or has a first token on the ignore list |
| ParamLine.ParseLine | centre_binary_epochs.py:30-38 | a line is skipped exactly by the skip rule; fails exactly when it is not skipped and has fewer than two tokens; otherwise it is `process_param_line` of its tokens |
| ParTable.Entries | centre_binary_epochs.py:41-45 | a parsed line writes its value under its name and its kind under `_TYPE`; it writes `_ERR` exactly when the uncertainty is present and nonzero; it writes no other key |
| ParTable.StoreRecord | centre_binary_epochs.py:41-45 | the three stores in sequence equal the table overlaid with `Entries` |
| ParTable.StepShape | centre_binary_epochs.py:29-51 | one iteration appends the line; it fails exactly on a one-token line, reporting its index; otherwise it overlays the line's entries and records the index when the name is `T0`/`TASC` |
| ParTable.FailureSticks | centre_binary_epochs.py:38 | once a line raises, later lines change nothing |
| ParTable.ReadPar | centre_binary_epochs.py:13-53 | the loop returns exactly `ReadSpec`, the fold of `Step` over the lines |
| ParTableFacts.KeepsLinesWith | centre_binary_epochs.py:28-29 | after any successful read, the original lines are the input |
| ParTableFacts.FailsAtFirstWith | centre_binary_epochs.py:30-38 | the read fails exactly when some line is a one-token line, and reports the first one |
| ParTableFacts.EpochIndexWith | centre_binary_epochs.py:24-51 | the index is the last `T0`/`TASC` line, and is absent exactly when there is none |
| ParTableFacts.LastWriteWith | centre_binary_epochs.py:41-45 | a key is in the table exactly when some line writes it, and holds what the last such line wrote |
| ParTableFacts.ReadKeepsLines | centre_binary_epochs.py:28-29 | every line, skipped or not, is kept in order |
| ParTableFacts.ReadFailsAtFirstMissing | centre_binary_epochs.py:30-38 | success exactly when no line is a name without a value; a failure reports the first such line |
| ParTableFacts.EpochIndexIsLast | centre_binary_epochs.py:24-51 | the stored index is the 0-based position of the last parsed `T0`/`TASC` line, and is None exactly when there is no such line |
| ParTableFacts.NoEntriesIffSkipped | centre_binary_epochs.py:33-35 | a line that does not raise writes no entry exactly when it is skipped |
| ParTableFacts.KeysWritten | centre_binary_epochs.py:41-45 | a key is in the table exactly when some parsed line writes it |
| ParTableFacts.LastWriteWins | centre_binary_epochs.py:41-45 | a key holds what the last line writing it wrote |
| ParTableFacts.EpochKeyOfOutcome | centre_binary_epochs.py:41-48 | a line writes `T0` or `TASC` exactly when its name is one of them, because side keys end in `_ERR`/`_TYPE` |
| ParTableFacts.EpochKeyIffIndex | centre_binary_epochs.py:41-49 | the table has `T0` or `TASC` exactly when an index was stored |
| ParTableFacts.ReplaceOutcome | centre_binary_epochs.py:28-51 | replacing one line's outcome, when neither the old nor the new outcome is a name-only failure and both write only keys in S, leaves success and every key outside S unchanged |
| ParTableFacts.ReplaceLine | centre_binary_epochs.py:28-51 | the same for the lines themselves: when neither the replaced nor the new line is name-only and both write only keys in S, success and every key outside S are unchanged |
| Centring.Trunc | centre_binary_epochs.py:144 | the integer part of the quotient: between 0 and q for q ≥ 0, between q and 0 for q < 0, less than one away |
| Centring.ResolveTarget | centre_binary_epochs.py:127-134 | an explicit epoch is used as is; otherwise START and FINISH must both be present (else the KeyError) and numeric (else the TypeError), and the target is their midpoint |
| Centring.EpochKey | centre_binary_epochs.py:137 | `T0` when present, otherwise `TASC` |
| Centring.ResolvePeriod | centre_binary_epochs.py:138-141 | `PB` as stored when present; otherwise the KeyError for a missing `FB0`, the TypeError for a textual one, the division by zero for a zero one, or x with x·FB0·86400 = 1 |
| Centring.Centre | centre_binary_epochs.py:127-147 | on success: the key is `EpochKey`, present and numeric; the target and period are the resolved ones and the period is nonzero; the count is `Trunc((target − epoch)/pb)`; only the key's entry moves, by count·pb; a failure to resolve the target is reported with the target's error (the `KeyError` or `TypeError` at lines 133-134), and otherwise a failure to resolve the period with the period's error (lines 139-141) |
| CentringFacts.TruncVersusFloor | centre_binary_epochs.py:144 | truncation equals floor for non-negative or whole quotients and is floor + 1 otherwise |
| CentringFacts.SmallQuotient | centre_binary_epochs.py:144 | less than one period away is zero whole periods |
| CentringFacts.TruncOfShift | centre_binary_epochs.py:144 | truncating k + f, for f in [0, 1), gives k unless k < 0 and f > 0, and then k + 1 |
| CentringFacts.Remainder | centre_binary_epochs.py:144-147 | what is left after removing the truncated count of periods is smaller than a period, no larger than the distance, and zero or of the distance's sign |
| CentringFacts.Landing | centre_binary_epochs.py:144-147 | the same facts, for the moved epoch against the target |
| CentringFacts.LandsNearTarget | centre_binary_epochs.py:144-147 | the new epoch is within one period of the target, no farther than the old epoch, and on the same side of the target as the old one (or on it) |
| CentringFacts.CentreMovesOnlyEpoch | centre_binary_epochs.py:147 | the table keeps its keys and every other value; the epoch moves by exactly count·pb |
| CentringFacts.RecentreIsIdentity | centre_binary_epochs.py:144-147 | centring the centred table on the same target counts zero orbits and changes nothing |
| CentringFacts.OrbitCount | centre_binary_epochs.py:144-147 | with pb > 0 and a target k periods plus r ∈ [0, pb) past the epoch, the count is k, except k + 1 when k < 0 and r > 0 |
| CentringFacts.CentreFailures | centre_binary_epochs.py:137-147 | with the target and period resolved, there are five outcomes. It is a KeyError for `TASC` when neither key exists. It is the TypeError exactly when the key exists and its value or the period is text. It succeeds exactly when the key's value and the period are numbers and the period is nonzero. It is DivisionByZero exactly when a zero period meets a nonzero distance, and the 0/0 error exactly when it meets a zero distance |
| CentringFacts.CentreReadsOnly | centre_binary_epochs.py:127-147 | tables that agree on START, FINISH, PB, FB0 and the epoch key centre alike |
| CentringFacts.PeriodSourceEquivalence | centre_binary_epochs.py:138-141 | a table with `FB0` = f ≠ 0 and no `PB` centres exactly like the same table with `PB` = 1/f/86400 added: the same error, or the same result apart from that `PB` entry |
| Rewrite.EpochLine | centre_binary_epochs.py:111-112 | a line exists exactly when `T0` or `TASC` is in the table, and it is `KEY VALUE 1` with `T0` preferred |
| Rewrite.Rewritten | centre_binary_epochs.py:109-114 | same length, the line at the index replaced, every other line copied |
| Rewrite.WriteSpec | centre_binary_epochs.py:104-114 | fails exactly when the index is in range and neither key exists, having written the lines before it; otherwise same length, other lines copied, and the line at the index is the epoch line |
| Rewrite.WriteUpdatedPar | centre_binary_epochs.py:104-114 | the loop's output is exactly `WriteSpec` |
| Rewrite.NoIndexNoChange | centre_binary_epochs.py:109-114 | with no index the output equals the input |
| Rewrite.RewriteSame | centre_binary_epochs.py:109-114 | replacing a line by itself changes nothing |
| CentreScript.Run | centre_binary_epochs.py:123-150 | the script succeeds exactly when reading and centring succeed; writing never fails; the output has as many lines as the input; a failed read reports the read's error (the `IndexError` that `sline[1]` at line 64 raises on the first name-only line), and a failed centring reports the centring's error |
| CentreScript.CentreBinaryEpochs | centre_binary_epochs.py:123-150 | read, centre (updating the epoch entry in place) and write give exactly `Run` |
| CentreScriptFacts.OnlyEpochLineChanges | centre_binary_epochs.py:123-150 | once reading and centring succeed, a `T0`/`TASC` line exists and the write cannot fail; the output keeps every other line and holds `KEY fmt(new epoch) 1` at that line |
| CentreScriptFacts.EpochLineKeys | centre_binary_epochs.py:41-48 | an epoch line writes only `T0`/`TASC` and their side keys |
| CentreScriptFacts.NotEpochLineKeys | centre_binary_epochs.py:41-48 | any other line writes neither `T0` nor `TASC` |
| CentreScriptFacts.SplitRenderedLine | centre_binary_epochs.py:112 | the written line splits into the key, the rendered value and `1` |
| CentreScriptFacts.RenderedLineParses | centre_binary_epochs.py:112 | the written line reads back as the same key and value with no uncertainty, given a rendering that reads back |
| CentreScriptFacts.RereadWith | centre_binary_epochs.py:13-53 | replacing the last epoch line by one for the same key keeps the index and every key outside the epoch keys, and stores the new value |
| CentreScriptFacts.RereadReplaced | centre_binary_epochs.py:13-53 | the same, for `ReadSpec` and the inputs of the centring |
| CentreScriptFacts.CentreReread | centre_binary_epochs.py:127-147 | a table that has the same epoch key as the centred one, holds the centred epoch under it, and agrees with the input on START, FINISH, PB and FB0 centres to itself with zero orbits |
| CentreScriptFacts.RunIsIdempotent | centre_binary_epochs.py:123-150 | running the script on its own output gives the same output again, given a rendering that reads back as the same decimal |

## Left out

- Command-line parsing and file I/O (lines 116-121, 27-28, 108): the input
  is a `seq<string>` of lines, and the output is the `seq<string>` of
  lines written.
- `float(err)` at line 43: the `_ERR` entry holds the exact decimal.
- The `type=float` explicit epoch at lines 120 and 128: it is an exact
  `real`.
- `Decimal`'s 28-digit context rounding in `/` (lines 134, 141), `+`
  (lines 134, 147), `-` (line 144) and `*` (line 147), and its overflow in
  `//`: all arithmetic is exact rational arithmetic.
- Tokens.Split: Python's `str.split()` also splits at non-ASCII whitespace
  (U+0085, U+00A0, U+1680, U+2000 to U+200A, U+2028, U+2029, U+202F,
  U+205F, U+3000). The model's splitter treats only the ASCII whitespace
  characters as separators, so a line using those characters is
  tokenised differently.
- `NaN`, `Infinity`, underscores, surrounding whitespace and non-ASCII
  digits in tokens: the decimal grammar is the plain ASCII one.
- `Decimal.__str__` in the output line (line 112): it is the function
  parameter `fmt`. The idempotence theorem assumes `fmt` renders a value as
  one token that reads back to the same value. A value is a bare `real`, so
  a `Decimal`'s exponent (its trailing zeros, as in `59100.50` against
  `59100.5`) is not kept and `fmt` sees only the value.
- The `InvalidOperation` fallback at lines 74-77 is unreachable after
  `is_numeric` succeeds, so the model has no branch for it.
- Rewrite.WriteUpdatedPar: writes go to a list rather than a file. A
  KeyError part-way through is modelled as an error that carries the lines
  already written.

=== FILE: centre_script.dfy ===
/** The script as a whole (centre_binary_epochs.py:123-150): read the
    table, centre the reference epoch, write the lines back. */
module CentreScript {
  import opened Wrappers
  import opened ParamLine
  import opened ParTable
  import opened ParTableFacts
  import opened Centring
  import opened Rewrite

  datatype ScriptError =
    | ReadFailed(readError: ReadError)
    | CentreFailed(centreError: CentreError)
    | WriteFailed(writeError: WriteError)

  /** The output lines for the input lines, an optional explicit target
      epoch and the rendering of decimals. The script succeeds exactly when
      reading and centring do: writing cannot fail once the table holds the
      reference epoch, and the output has one line per input line. */
  function Run(lines: seq<string>, explicitEpoch: Option<real>, fmt: real -> string)
    : (r: Result<seq<string>, ScriptError>)
    ensures r.Success? <==>
              ReadSpec(lines).Success? && Centre(ReadSpec(lines).value.par, explicitEpoch).Success?
    ensures r.Failure? ==> !r.error.WriteFailed?
    ensures r.Success? ==> |r.value| == |lines|
    // A failed read reports the read's own error (the first name-only
    // line); a failed centring reports the centring's error.
    ensures ReadSpec(lines).Failure? ==> r == Failure(ReadFailed(ReadSpec(lines).error))
    ensures ReadSpec(lines).Success? && Centre(ReadSpec(lines).value.par, explicitEpoch).Failure? ==>
              r == Failure(CentreFailed(Centre(ReadSpec(lines).value.par, explicitEpoch).error))
  {
    ReadKeepsLines(lines);
    match ReadSpec(lines)
    case Failure(e) => Failure(ReadFailed(e))
    case Success(p) =>
      match Centre(p.par, explicitEpoch)
      case Failure(e) => Failure(CentreFailed(e))
      case Success(c) =>
        match WriteSpec(c.pars, p.originalLines, p.epochLine, fmt)
        case Failure(e) => Failure(WriteFailed(e))
        case Success(out) => Success(out)
  }

  /** The script's top level, step by step. */
  method CentreBinaryEpochs(lines: seq<string>, explicitEpoch: Option<real>, fmt: real -> string)
    returns (r: Result<seq<string>, ScriptError>)
    ensures r == Run(lines, explicitEpoch, fmt)
  {
    var read := ReadPar(lines);
    if read.Failure? {
      return Failure(ReadFailed(read.error));
    }
    var centred := Centre(read.value.par, explicitEpoch);
    if centred.Failure? {
      return Failure(CentreFailed(centred.error));
    }
    var c := centred.value;
    var pars := read.value.par;
    // `pars[epoch_key] += norbs * pb`
    pars := pars[c.key := Num(Advance(pars[c.key].x, c.norbs, c.pb))];
    var written := WriteUpdatedPar(pars, read.value.originalLines, read.value.epochLine, fmt);
    match written
    case Failure(e) => r := Failure(WriteFailed(e));
    case Success(out) => r := Success(out);
  }
}

/** End-to-end promises: only the reference-epoch line changes, and running
    the script on its own output changes nothing more. */
module CentreScriptFacts {
  import opened Wrappers
  import opened Tokens
  import opened DecimalText
  import opened ParamLine
  import opened ParTable
  import opened ParTableFacts
  import opened Centring
  import opened CentringFacts
  import opened Rewrite
  import opened CentreScript

  /** Once the table is read and centred, writing cannot fail: the output
      has the input's lines except the last `T0`/`TASC` line, which holds
      the moved epoch. */
  lemma OnlyEpochLineChanges(lines: seq<string>, explicitEpoch: Option<real>, fmt: real -> string,
                             p: ParFile, c: Centred)
    requires ReadSpec(lines) == Success(p) && Centre(p.par, explicitEpoch) == Success(c)
    ensures p.epochLine.Some? && p.epochLine.value < |lines| && IsEpochLine(lines[p.epochLine.value])
    ensures var idx := p.epochLine.value;
            Run(lines, explicitEpoch, fmt).Success? &&
            var out := Run(lines, explicitEpoch, fmt).value;
            |out| == |lines| &&
            (forall i :: 0 <= i < |lines| && i != idx ==> out[i] == lines[i]) &&
            out[idx] == c.key + " " + fmt(c.pars[c.key].x) + " 1\n"
  {
    ReadKeepsLines(lines);
    EpochKeyIffIndex(lines);
    EpochIndexIsLast(lines);
  }

  /** A rendering of `x` that reads back as `x`: one token, no spaces, and
      the same decimal after the `D` to `E` normalisation. */
  predicate FaithfulRendering(fmt: real -> string, x: real) {
    var t := fmt(x);
    t != [] && NoSpace(t) && ParseDecimal(Normalise(t)) == Some(x)
  }

  /** The keys a `T0` or `TASC` line can write. */
  const EpochKeys: set<string> :=
    {"T0", "TASC", ErrKey("T0"), ErrKey("TASC"), TypeKey("T0"), TypeKey("TASC")}

  lemma EpochLineKeys(line: string)
    requires IsEpochLine(line)
    ensures LineEntries(line).Keys <= EpochKeys
  {
  }

  lemma NotEpochLineKeys(line: string)
    requires !IsEpochLine(line)
    ensures "T0" !in LineEntries(line) && "TASC" !in LineEntries(line)
  {
    EpochKeyOfOutcome(ParseLine(line));
  }

  lemma SplitRenderedLine(key: string, t: string)
    requires key == "T0" || key == "TASC"
    requires t != [] && NoSpace(t)
    ensures Split(key + " " + t + " 1\n") == [key, t, "1"]
  {
    var ws := [key, t, "1"];
    assert ws[1..][1..] == ["1"] && ws[1..] == [t, "1"];
    assert Join(ws[1..]) == t + " " + "1";
    assert key + " " + t + " 1\n" == Join(ws) + "\n";
    SplitJoin(ws, "\n");
  }

  lemma ProcessRenderedTokens(sline: seq<string>, x: real)
    requires |sline| == 3 && sline[2] == "1" && ParseDecimal(Normalise(sline[1])) == Some(x)
    ensures var r := ProcessParamLine(sline);
            r.name == Alias(sline[0]) && r.value == Num(x) && r.err.None?
  {
  }

  /** The line the rewrite emits is not skipped and splits into the key,
      the rendered value and the fit flag `1`. */
  lemma RenderedLineTokens(key: string, t: string)
    requires key == "T0" || key == "TASC"
    requires t != [] && NoSpace(t)
    ensures Split(key + " " + t + " 1\n") == [key, t, "1"]
    ensures !Skipped(key + " " + t + " 1\n")
  {
    var line := key + " " + t + " 1\n";
    SplitRenderedLine(key, t);
    assert line[0] == 'T';
    assert key !in Ignore;
  }

  /** The line the rewrite emits reads back as the same key and value,
      with no uncertainty (its last token is the fit flag `1`). */
  lemma RenderedLineParses(key: string, t: string, x: real)
    requires key == "T0" || key == "TASC"
    requires t != [] && NoSpace(t) && ParseDecimal(Normalise(t)) == Some(x)
    ensures var o := ParseLine(key + " " + t + " 1\n");
            o.Parsed? && o.rec.name == key && o.rec.value == Num(x) && o.rec.err.None?
  {
    RenderedLineTokens(key, t);
    ProcessRenderedTokens([key, t, "1"], x);
  }

  /** Reading the lines again after the last `T0`/`TASC` line is replaced
      by another line for the same key: the index is the same, the key
      holds the new value, and no other parameter changes. */
  lemma RereadWith(lines: seq<string>, os: seq<LineOutcome>, p: ParFile, idx: nat,
                   line: string, o: LineOutcome, key: string, x: real)
    requires |os| == |lines| && ReadWith(lines, os) == Success(p)
    requires p.epochLine == Some(idx) && idx < |lines|
    requires key == EpochKey(p.par) && key in p.par
    requires o.Parsed? && o.rec.name == key && o.rec.value == Num(x)
    ensures ReadWith(lines[idx := line], os[idx := o]).Success?
    ensures var p2 := ReadWith(lines[idx := line], os[idx := o]).value;
            p2.originalLines == lines[idx := line] && p2.epochLine == Some(idx) &&
            key in p2.par && p2.par[key] == Num(x) && EpochKey(p2.par) == key &&
            forall k :: k !in EpochKeys ==>
                          (k in p.par <==> k in p2.par) && (k in p.par ==> p.par[k] == p2.par[k])
  {
    RereadIndex(lines, os, p, idx, line, o, key);
    RereadOthers(lines, os, p, idx, line, o, key);
    RereadKey(lines, os, p, idx, line, o, key, x);
  }

  lemma RereadIndex(lines: seq<string>, os: seq<LineOutcome>, p: ParFile, idx: nat,
                    line: string, o: LineOutcome, key: string)
    requires |os| == |lines| && ReadWith(lines, os) == Success(p)
    requires p.epochLine == Some(idx) && idx < |lines|
    requires key == EpochKey(p.par)
    requires o.Parsed? && o.rec.name == key
    ensures ReadWith(lines[idx := line], os[idx := o]).Success?
    ensures var p2 := ReadWith(lines[idx := line], os[idx := o]).value;
            p2.originalLines == lines[idx := line] && p2.epochLine == Some(idx)
  {
    var out := lines[idx := line];
    var os2 := os[idx := o];
    EpochIndexWith(lines, os);
    FailsAtFirstWith(lines, os);
    FailsAtFirstWith(out, os2);
    KeepsLinesWith(out, os2);
    assert IsEpochOutcome(os2[idx]);
    EpochIndexWith(out, os2);
    assert forall j :: idx < j < |os2| ==> os2[j] == os[j];
  }

  lemma RereadOthers(lines: seq<string>, os: seq<LineOutcome>, p: ParFile, idx: nat,
                     line: string, o: LineOutcome, key: string)
    requires |os| == |lines| && ReadWith(lines, os) == Success(p)
    requires p.epochLine == Some(idx) && idx < |lines|
    requires key == EpochKey(p.par)
    requires o.Parsed? && o.rec.name == key
    ensures ReadWith(lines[idx := line], os[idx := o]).Success?
    ensures var p2 := ReadWith(lines[idx := line], os[idx := o]).value;
            forall k :: k !in EpochKeys ==>
                          (k in p.par <==> k in p2.par) && (k in p.par ==> p.par[k] == p2.par[k])
  {
    EpochIndexWith(lines, os);
    FailsAtFirstWith(lines, os);
    ReplaceOutcome(lines, os, idx, line, o, EpochKeys);
  }

  lemma RereadKey(lines: seq<string>, os: seq<LineOutcome>, p: ParFile, idx: nat,
                  line: string, o: LineOutcome, key: string, x: real)
    requires |os| == |lines| && ReadWith(lines, os) == Success(p)
    requires p.epochLine == Some(idx) && idx < |lines|
    requires key == EpochKey(p.par) && key in p.par
    requires o.Parsed? && o.rec.name == key && o.rec.value == Num(x)
    requires ReadWith(lines[idx := line], os[idx := o]).Success?
    ensures var p2 := ReadWith(lines[idx := line], os[idx := o]).value;
            key in p2.par && p2.par[key] == Num(x) && EpochKey(p2.par) == key
  {
    var os2 := os[idx := o];
    NoEpochKeyAfter(lines, os, p, idx, os2);
    LastWriteWith(lines[idx := line], os2);
    assert key in OutcomeEntries(os2[idx]);
    if key == "TASC" {
      NoT0Before(lines, os, p, idx, os2);
    }
  }

  /** After the last epoch line, no line writes `T0` or `TASC`. */
  lemma NoEpochKeyAfter(lines: seq<string>, os: seq<LineOutcome>, p: ParFile, idx: nat,
                         os2: seq<LineOutcome>)
    requires |os| == |lines| && ReadWith(lines, os) == Success(p)
    requires p.epochLine == Some(idx) && idx < |lines|
    requires |os2| == |os| && forall j :: idx < j < |os| ==> os2[j] == os[j]
    ensures forall j :: idx < j < |os2| ==>
              "T0" !in OutcomeEntries(os2[j]) && "TASC" !in OutcomeEntries(os2[j])
  {
    EpochIndexWith(lines, os);
    forall j | idx < j < |os|
      ensures "T0" !in OutcomeEntries(os[j]) && "TASC" !in OutcomeEntries(os[j])
    {
      EpochKeyOfOutcome(os[j]);
    }
  }

  /** When the table has no `T0`, no line before the last epoch line writes it. */
  lemma NoT0Before(lines: seq<string>, os: seq<LineOutcome>, p: ParFile, idx: nat,
                    os2: seq<LineOutcome>)
    requires |os| == |lines| && ReadWith(lines, os) == Success(p)
    requires idx < |lines| && "T0" !in p.par
    requires |os2| == |os| && forall j :: 0 <= j < idx ==> os2[j] == os[j]
    requires os2[idx].Parsed? && os2[idx].rec.name == "TASC"
    ensures forall j :: 0 <= j <= idx ==> "T0" !in OutcomeEntries(os2[j])
  {
    LastWriteWith(lines, os);
  }

  /** The parameters the centring reads, other than the reference epoch,
      are not keys a `T0` or `TASC` line writes. */
  lemma InputsOutsideEpochKeys()
    ensures "START" !in EpochKeys && "FINISH" !in EpochKeys
    ensures "PB" !in EpochKeys && "FB0" !in EpochKeys
  {
    assert ErrKey("T0")[1] == '0' && TypeKey("T0")[1] == '0';
    assert ErrKey("TASC")[1] == 'A' && TypeKey("TASC")[1] == 'A';
  }

  /** The table read back from the output centres to itself. */
  lemma CentreReread(par: map<string, Value>, explicitEpoch: Option<real>, c: Centred,
                     par2: map<string, Value>)
    requires Centre(par, explicitEpoch) == Success(c)
    requires EpochKey(par2) == c.key && c.key in par2 && par2[c.key] == c.pars[c.key]
    requires SameAt(par, par2, "START") && SameAt(par, par2, "FINISH")
    requires SameAt(par, par2, "PB") && SameAt(par, par2, "FB0")
    ensures Centre(par2, explicitEpoch) == Success(c.(norbs := 0, pars := par2))
  {
    RecentreIsIdentity(par, explicitEpoch, c);
    CentreReadsOnly(c.pars, par2, explicitEpoch);
    assert par2[c.key := c.pars[c.key]] == par2;
  }

  /** Reading the lines back after the last `T0`/`TASC` line is replaced
      by a line that parses to the same key: the epoch line index is the
      same, the key holds the new value, and the parameters the centring
      reads keep their values. */
  lemma RereadReplaced(lines: seq<string>, p: ParFile, idx: nat, line: string, key: string, x: real)
    requires ReadSpec(lines) == Success(p) && p.epochLine == Some(idx) && idx < |lines|
    requires key == EpochKey(p.par) && key in p.par
    requires var o := ParseLine(line); o.Parsed? && o.rec.name == key && o.rec.value == Num(x)
    ensures ReadSpec(lines[idx := line]).Success?
    ensures var p2 := ReadSpec(lines[idx := line]).value;
            p2.originalLines == lines[idx := line] && p2.epochLine == Some(idx) &&
            EpochKey(p2.par) == key && key in p2.par && p2.par[key] == Num(x) &&
            SameAt(p.par, p2.par, "START") && SameAt(p.par, p2.par, "FINISH") &&
            SameAt(p.par, p2.par, "PB") && SameAt(p.par, p2.par, "FB0")
  {
    var os := Outcomes(lines);
    RereadWith(lines, os, p, idx, line, ParseLine(line), key, x);
    assert Outcomes(lines[idx := line]) == os[idx := ParseLine(line)];
    InputsOutsideEpochKeys();
  }

  /** Running the script on its own output gives the same output again,
      provided the new epoch is rendered as text that reads back as the
      same decimal. */
  lemma RunIsIdempotent(lines: seq<string>, explicitEpoch: Option<real>, fmt: real -> string,
                        p: ParFile, c: Centred)
    requires ReadSpec(lines) == Success(p) && Centre(p.par, explicitEpoch) == Success(c)
    requires FaithfulRendering(fmt, c.pars[c.key].x)
    ensures Run(lines, explicitEpoch, fmt).Success?
    ensures Run(Run(lines, explicitEpoch, fmt).value, explicitEpoch, fmt) == Run(lines, explicitEpoch, fmt)
  {
    OnlyEpochLineChanges(lines, explicitEpoch, fmt, p, c);
    var out := Run(lines, explicitEpoch, fmt).value;
    var idx := p.epochLine.value;
    var x := c.pars[c.key].x;
    var newLine := c.key + " " + fmt(x) + " 1\n";
    assert out == lines[idx := newLine];
    RenderedLineParses(c.key, fmt(x), x);
    RereadReplaced(lines, p, idx, newLine, c.key, x);
    var p2 := ReadSpec(out).value;
    CentreReread(p.par, explicitEpoch, c, p2.par);
    assert EpochLine(p2.par, fmt) == Some(newLine);
    RewriteSame(out, idx);
  }
}

=== FILE: centring.dfy ===
/** The centring arithmetic of centre_binary_epochs.py:127-147: pick the
    target epoch, the reference-epoch key and the orbital period, count the
    whole periods between the reference epoch and the target, and move the
    reference epoch by that many periods. Decimal values are exact reals. */
module Centring {
  import opened Wrappers
  import opened ParamLine

  /** The exceptions the script can raise here. */
  datatype CentreError =
    | MissingEpochBounds       // no explicit epoch and START or FINISH absent
    | MissingKey(key: string)  // a parameter looked up with `[]` is absent
    | NotNumeric               // TypeError: an operand is a string
    | DivisionByZero           // a nonzero value divided by zero
    | DivisionUndefined        // zero divided by zero

  datatype Centred = Centred(key: string, target: real, pb: real, norbs: int,
                             pars: map<string, Value>)

  /** `Decimal.__floordiv__`: the integer part of the quotient, rounded
      toward zero (not floored). */
  function Trunc(q: real): (n: int)
    ensures q >= 0.0 ==> 0 <= n && n as real <= q < n as real + 1.0
    ensures q < 0.0 ==> n <= 0 && n as real - 1.0 < q <= n as real
  {
    if q >= 0.0 then q.Floor else -((-q).Floor)
  }

  /** The target epoch: the one given, or the midpoint of START and FINISH. */
  function ResolveTarget(pars: map<string, Value>, explicitEpoch: Option<real>): (r: Result<real, CentreError>)
    ensures explicitEpoch.Some? ==> r == Success(explicitEpoch.value)
    ensures explicitEpoch.None? && ("START" !in pars || "FINISH" !in pars) ==>
              r == Failure(MissingEpochBounds)
    ensures explicitEpoch.None? && "START" in pars && "FINISH" in pars ==>
              (r.Success? <==> pars["START"].Num? && pars["FINISH"].Num?)
    ensures explicitEpoch.None? && r.Success? ==>
              var s := pars["START"].x; var f := pars["FINISH"].x;
              r.value - s == f - r.value
    ensures explicitEpoch.None? && "START" in pars && "FINISH" in pars && r.Failure? ==>
              r.error == NotNumeric
    ensures r.Failure? ==> r.error == MissingEpochBounds || r.error == NotNumeric
  {
    if explicitEpoch.Some? then Success(explicitEpoch.value)
    else if "START" !in pars || "FINISH" !in pars then Failure(MissingEpochBounds)
    else
      var start := pars["START"];
      var finish := pars["FINISH"];
      if start.Str? || finish.Str? then Failure(NotNumeric)
      else Success((finish.x + start.x) / 2.0)
  }

  /** The reference-epoch key: `T0` when present, otherwise `TASC`. */
  function EpochKey(pars: map<string, Value>): (k: string)
    ensures k == "T0" <==> "T0" in pars
    ensures k == "T0" || k == "TASC"
  {
    if "T0" in pars then "T0" else "TASC"
  }

  const SecondsPerDay: real := 86400.0

  /** The orbital period in days: `PB` as stored (a string is caught later),
      or else `1/FB0/86400`. */
  function ResolvePeriod(pars: map<string, Value>): (r: Result<Value, CentreError>)
    ensures "PB" in pars ==> r == Success(pars["PB"])
    ensures "PB" !in pars && "FB0" !in pars ==> r == Failure(MissingKey("FB0"))
    ensures "PB" !in pars && "FB0" in pars && pars["FB0"].Num? && pars["FB0"].x != 0.0 ==>
              r.Success? && r.value.Num? && r.value.x * pars["FB0"].x * SecondsPerDay == 1.0
    ensures "PB" !in pars && "FB0" in pars && pars["FB0"].Num? && pars["FB0"].x == 0.0 ==>
              r == Failure(DivisionByZero)
    ensures "PB" !in pars && "FB0" in pars && pars["FB0"].Str? ==> r == Failure(NotNumeric)
  {
    if "PB" in pars then Success(pars["PB"])
    else if "FB0" !in pars then Failure(MissingKey("FB0"))
    else
      var fb0 := pars["FB0"];
      if fb0.Str? then Failure(NotNumeric)
      else if fb0.x == 0.0 then Failure(DivisionByZero)
      else Success(Num(1.0 / fb0.x / SecondsPerDay))
  }

  /** The reference epoch moved by `norbs` periods. */
  function Advance(epoch: real, norbs: int, pb: real): real {
    epoch + norbs as real * pb
  }

  /** The whole script step: the orbit count and the table with the
      reference epoch moved by that many periods. */
  function Centre(pars: map<string, Value>, explicitEpoch: Option<real>): (r: Result<Centred, CentreError>)
    ensures r.Success? ==>
              var c := r.value;
              c.key == EpochKey(pars) && c.key in pars && pars[c.key].Num? &&
              ResolveTarget(pars, explicitEpoch) == Success(c.target) &&
              ResolvePeriod(pars) == Success(Num(c.pb)) && c.pb != 0.0 &&
              c.norbs == Trunc((c.target - pars[c.key].x) / c.pb) &&
              c.pars == pars[c.key := Num(Advance(pars[c.key].x, c.norbs, c.pb))]
    // A target that cannot be resolved is reported first, then a period
    // that cannot be resolved, each with its own error.
    ensures ResolveTarget(pars, explicitEpoch).Failure? ==>
              r == Failure(ResolveTarget(pars, explicitEpoch).error)
    ensures ResolveTarget(pars, explicitEpoch).Success? && ResolvePeriod(pars).Failure? ==>
              r == Failure(ResolvePeriod(pars).error)
  {
    match ResolveTarget(pars, explicitEpoch)
    case Failure(e) => Failure(e)
    case Success(target) =>
      match ResolvePeriod(pars)
      case Failure(e) => Failure(e)
      case Success(period) =>
        var key := EpochKey(pars);
        if key !in pars then Failure(MissingKey(key))
        else if pars[key].Str? || period.Str? then Failure(NotNumeric)
        else
          var diff := target - pars[key].x;
          var pb := period.x;
          if pb == 0.0 then
            Failure(if diff == 0.0 then DivisionUndefined else DivisionByZero)
          else
            var norbs := Trunc(diff / pb);
            Success(Centred(key, target, pb, norbs, pars[key := Num(Advance(pars[key].x, norbs, pb))]))
  }
}

/** What the centring promises: the epoch moves by whole periods, lands
    within one period of the target on the same side, and a second centring
    on the same target changes nothing. */
module CentringFacts {
  import opened Wrappers
  import opened ParamLine
  import opened Centring

  function Abs(x: real): real { if x < 0.0 then -x else x }

  lemma FloorIs(q: real, m: int)
    requires m as real <= q < m as real + 1.0
    ensures q.Floor == m
  {
  }

  /** Truncation agrees with floor for a non-negative or whole quotient and
      is one more than floor otherwise. */
  lemma TruncVersusFloor(q: real)
    ensures q >= 0.0 || q == q.Floor as real ==> Trunc(q) == q.Floor
    ensures q < 0.0 && q != q.Floor as real ==> Trunc(q) == q.Floor + 1
  {
    if q < 0.0 {
      var f := (-q).Floor;
      if q == q.Floor as real {
        FloorIs(-q, -q.Floor);
      } else {
        FloorIs(-q, f);
        FloorIs(q, -f - 1);
      }
    }
  }

  lemma ScaleBelow(a: real, b: real, c: real)
    requires 0.0 <= a <= b && c > 0.0
    ensures a * c <= b * c
    ensures a < b ==> a * c < b * c
  {
  }

  lemma AbsProduct(a: real, b: real)
    ensures Abs(a * b) == Abs(a) * Abs(b)
  {
  }

  /** A fraction `fp` of a period is smaller than the period and no larger
      than the quotient's multiple `qp` of it. */
  lemma FractionOfPeriod(frac: real, q: real, pb: real, fp: real, qp: real)
    requires pb != 0.0 && Abs(frac) < 1.0 && Abs(frac) <= Abs(q)
    requires fp == frac * pb && qp == q * pb
    ensures Abs(fp) < Abs(pb) && Abs(fp) <= Abs(qp)
  {
    AbsProduct(frac, pb);
    AbsProduct(q, pb);
    FractionSize(Abs(frac), Abs(q), Abs(pb), Abs(fp), Abs(qp));
  }

  lemma FractionSize(a: real, c: real, b: real, ab: real, cb: real)
    requires 0.0 <= a < 1.0 && a <= c && b > 0.0
    requires ab == a * b && cb == c * b
    ensures ab < b && ab <= cb
  {
    ScaleBelow(a, 1.0, b);
    ScaleBelow(a, c, b);
  }

  lemma FractionSign(frac: real, q: real, pb: real, fp: real, qp: real)
    requires pb != 0.0 && Abs(frac) <= Abs(q)
    requires q >= 0.0 ==> frac >= 0.0
    requires q < 0.0 ==> frac <= 0.0
    requires fp == frac * pb && qp == q * pb
    ensures fp == 0.0 || (fp > 0.0 <==> qp > 0.0)
  {
    if frac != 0.0 {
      assert (frac > 0.0 <==> q > 0.0);
      ProductSign(frac, pb);
      ProductSign(q, pb);
    }
  }

  lemma ProductSign(a: real, b: real)
    requires a != 0.0 && b != 0.0
    ensures a * b > 0.0 <==> (a > 0.0 <==> b > 0.0)
  {
    if a > 0.0 && b < 0.0 {
      assert a * b == -(a * -b);
    } else if a < 0.0 && b > 0.0 {
      assert a * b == -(-a * b);
    } else if a < 0.0 && b < 0.0 {
      assert a * b == -a * -b;
    }
  }

  lemma QuotientTimesDivisor(d: real, pb: real)
    requires pb != 0.0
    ensures d / pb * pb == d
  {
  }

  lemma Distribute(q: real, n: real, pb: real)
    ensures q * pb - n * pb == (q - n) * pb
  {
  }

  lemma RemovePeriods(d: real, pb: real, q: real, n: real)
    requires pb != 0.0 && q * pb == d
    requires q >= 0.0 ==> 0.0 <= n <= q < n + 1.0
    requires q < 0.0 ==> n - 1.0 < q <= n <= 0.0
    ensures Abs(d - n * pb) < Abs(pb) && Abs(d - n * pb) <= Abs(d)
    ensures d - n * pb == 0.0 || (d - n * pb > 0.0 <==> d > 0.0)
  {
    Distribute(q, n, pb);
    FractionOfPeriod(q - n, q, pb, d - n * pb, d);
    FractionSign(q - n, q, pb, d - n * pb, d);
  }

  /** What is left of `d` after removing `Trunc(d/pb)` periods is smaller
      than one period, has the sign of `d` unless it is zero, and is no
      larger than `d`. */
  lemma Remainder(d: real, pb: real)
    requires pb != 0.0
    ensures var rest := d - Trunc(d / pb) as real * pb;
            Abs(rest) < Abs(pb) && Abs(rest) <= Abs(d) &&
            (rest == 0.0 || (rest > 0.0 <==> d > 0.0))
  {
    var q := d / pb;
    QuotientTimesDivisor(d, pb);
    RemovePeriods(d, pb, q, Trunc(q) as real);
  }

  /** Truncation of a whole number plus a fraction in [0, 1). */
  lemma TruncOfShift(k: int, f: real)
    requires 0.0 <= f < 1.0
    ensures Trunc(k as real + f) == if k >= 0 || f == 0.0 then k else k + 1
  {
    var q := k as real + f;
    if k < 0 && f > 0.0 {
      assert q < 0.0;
      var n := Trunc(q);
      assert n as real - 1.0 < q <= n as real;
    } else if k < 0 {
      assert q < 0.0;
    }
  }

  /** The centred epoch is within one period of the target, on the same
      side of it as the old epoch (or on it), and no farther from it. */
  lemma LandsNearTarget(pars: map<string, Value>, explicitEpoch: Option<real>, c: Centred)
    requires Centre(pars, explicitEpoch) == Success(c)
    ensures Abs(c.target - c.pars[c.key].x) < Abs(c.pb)
    ensures Abs(c.target - c.pars[c.key].x) <= Abs(c.target - pars[c.key].x)
    ensures c.target == c.pars[c.key].x ||
            (c.target > c.pars[c.key].x <==> c.target > pars[c.key].x)
  {
    Landing(c.target, pars[c.key].x, c.pb, c.pars[c.key].x);
  }

  lemma Landing(target: real, before: real, pb: real, after: real)
    requires pb != 0.0
    requires after == before + Trunc((target - before) / pb) as real * pb
    ensures Abs(target - after) < Abs(pb)
    ensures Abs(target - after) <= Abs(target - before)
    ensures target == after || (target > after <==> target > before)
  {
    Remainder(target - before, pb);
  }

  /** The centring moves the reference epoch by a whole number of periods
      and leaves every other entry of the table as it was. */
  lemma CentreMovesOnlyEpoch(pars: map<string, Value>, explicitEpoch: Option<real>, c: Centred)
    requires Centre(pars, explicitEpoch) == Success(c)
    ensures c.pars.Keys == pars.Keys
    ensures forall k :: k in pars && k != c.key ==> c.pars[k] == pars[k]
    ensures c.pars[c.key].Num? && c.pars[c.key].x - pars[c.key].x == c.norbs as real * c.pb
  {
  }

  /** Centring an already centred table on the same target counts zero
      orbits and changes nothing. */
  lemma RecentreIsIdentity(pars: map<string, Value>, explicitEpoch: Option<real>, c: Centred)
    requires Centre(pars, explicitEpoch) == Success(c)
    ensures Centre(c.pars, explicitEpoch) == Success(c.(norbs := 0))
  {
    var after := c.pars[c.key].x;
    LandsNearTarget(pars, explicitEpoch, c);
    assert ResolveTarget(c.pars, explicitEpoch) == Success(c.target);
    assert ResolvePeriod(c.pars) == Success(Num(c.pb));
    assert EpochKey(c.pars) == c.key;
    SmallQuotient(c.target - after, c.pb);
    assert Advance(after, 0, c.pb) == after;
    assert c.pars[c.key := Num(after)] == c.pars;
  }

  /** Less than one period is zero whole periods. */
  lemma SmallQuotient(d: real, pb: real)
    requires pb != 0.0 && Abs(d) < Abs(pb)
    ensures Trunc(d / pb) == 0
  {
    var q := d / pb;
    QuotientTimesDivisor(d, pb);
    AbsProduct(q, pb);
    BelowOne(Abs(q), Abs(pb), Abs(d));
  }

  lemma BelowOne(a: real, b: real, c: real)
    requires a >= 0.0 && b > 0.0 && a * b == c && c < b
    ensures a < 1.0
  {
    if a >= 1.0 {
      ScaleBelow(1.0, a, b);
    }
  }

  /** With a positive period, a target `k` whole periods plus `r` in
      [0, pb) past the epoch moves the epoch by `k` periods; for a target
      before the epoch with `r > 0`, truncation moves it one period less
      far (floor would give `k`). */
  lemma OrbitCount(pars: map<string, Value>, epoch: real, pb: real, k: int, r: real)
    requires EpochKey(pars) in pars && pars[EpochKey(pars)] == Num(epoch)
    requires "PB" in pars && pars["PB"] == Num(pb) && pb > 0.0 && 0.0 <= r < pb
    ensures var n := if k >= 0 || r == 0.0 then k else k + 1;
            var key := EpochKey(pars);
            Centre(pars, Some(epoch + k as real * pb + r))
            == Success(Centred(key, epoch + k as real * pb + r, pb, n,
                               pars[key := Num(Advance(epoch, n, pb))]))
  {
    var t := epoch + k as real * pb + r;
    OrbitQuotient(epoch, pb, k, r, t);
    CentreUnfolds(pars, Some(t), t, pb, if k >= 0 || r == 0.0 then k else k + 1);
  }

  /** `Centre` once its inputs are known. */
  lemma CentreUnfolds(pars: map<string, Value>, explicitEpoch: Option<real>, target: real, pb: real, n: int)
    requires ResolveTarget(pars, explicitEpoch) == Success(target)
    requires ResolvePeriod(pars) == Success(Num(pb)) && pb != 0.0
    requires EpochKey(pars) in pars && pars[EpochKey(pars)].Num?
    requires Trunc((target - pars[EpochKey(pars)].x) / pb) == n
    ensures var key := EpochKey(pars);
            Centre(pars, explicitEpoch)
            == Success(Centred(key, target, pb, n, pars[key := Num(Advance(pars[key].x, n, pb))]))
  {
  }

  lemma OrbitQuotient(epoch: real, pb: real, k: int, r: real, t: real)
    requires pb > 0.0 && 0.0 <= r < pb && t == epoch + k as real * pb + r
    ensures Trunc((t - epoch) / pb) == if k >= 0 || r == 0.0 then k else k + 1
  {
    assert t - epoch == k as real * pb + r;
    ShiftQuotient(k, r, pb);
    FractionBelowOne(r, pb);
    TruncOfShift(k, r / pb);
  }

  lemma ShiftQuotient(k: int, r: real, pb: real)
    requires pb != 0.0
    ensures (k as real * pb + r) / pb == k as real + r / pb
  {
    QuotientTimesDivisor(r, pb);
    Distribute(k as real, -(r / pb), pb);
  }

  lemma FractionBelowOne(r: real, pb: real)
    requires 0.0 <= r < pb
    ensures 0.0 <= r / pb < 1.0
    ensures r / pb == 0.0 <==> r == 0.0
  {
    QuotientTimesDivisor(r, pb);
    ProductWithPositive(r / pb, pb, r);
  }

  lemma ProductWithPositive(q: real, pb: real, r: real)
    requires pb > 0.0 && q * pb == r
    ensures q >= 0.0 <==> r >= 0.0
    ensures q == 0.0 <==> r == 0.0
    ensures q < 1.0 <==> r < pb
  {
    PositiveFactor(q, pb);
    assert r - pb == (q - 1.0) * pb;
    PositiveFactor(q - 1.0, pb);
  }

  lemma PositiveFactor(a: real, b: real)
    requires b > 0.0
    ensures a < 0.0 <==> a * b < 0.0
    ensures a == 0.0 <==> a * b == 0.0
  {
    if a < 0.0 {
      assert a * b == -((-a) * b);
    }
  }

  /** Once the target and the period resolve, the only failures left are a
      missing or textual reference epoch, a textual period, and a zero one. */
  lemma CentreFailures(pars: map<string, Value>, explicitEpoch: Option<real>)
    requires ResolveTarget(pars, explicitEpoch).Success? && ResolvePeriod(pars).Success?
    ensures "T0" !in pars && "TASC" !in pars ==>
              Centre(pars, explicitEpoch) == Failure(MissingKey("TASC"))
    ensures Centre(pars, explicitEpoch).Success? <==>
              EpochKey(pars) in pars && pars[EpochKey(pars)].Num? &&
              ResolvePeriod(pars).value.Num? && ResolvePeriod(pars).value.x != 0.0
    ensures Centre(pars, explicitEpoch) == Failure(DivisionUndefined) <==>
              EpochKey(pars) in pars && pars[EpochKey(pars)].Num? &&
              ResolvePeriod(pars).value == Num(0.0) &&
              ResolveTarget(pars, explicitEpoch).value == pars[EpochKey(pars)].x
    ensures Centre(pars, explicitEpoch) == Failure(NotNumeric) <==>
              EpochKey(pars) in pars &&
              (pars[EpochKey(pars)].Str? || ResolvePeriod(pars).value.Str?)
    ensures Centre(pars, explicitEpoch) == Failure(DivisionByZero) <==>
              EpochKey(pars) in pars && pars[EpochKey(pars)].Num? &&
              ResolvePeriod(pars).value == Num(0.0) &&
              ResolveTarget(pars, explicitEpoch).value != pars[EpochKey(pars)].x
  {
  }

  /** Two tables agree on key `k`. */
  predicate SameAt(par1: map<string, Value>, par2: map<string, Value>, k: string) {
    (k in par1 <==> k in par2) && (k in par1 ==> par1[k] == par2[k])
  }

  /** The centring reads only START, FINISH, PB, FB0 and the reference
      epoch: tables that agree on those centre alike. */
  lemma CentreReadsOnly(par1: map<string, Value>, par2: map<string, Value>, explicitEpoch: Option<real>)
    requires SameAt(par1, par2, "START") && SameAt(par1, par2, "FINISH")
    requires SameAt(par1, par2, "PB") && SameAt(par1, par2, "FB0")
    requires EpochKey(par1) == EpochKey(par2) && SameAt(par1, par2, EpochKey(par1))
    ensures Centre(par1, explicitEpoch).Failure? ==> Centre(par2, explicitEpoch) == Centre(par1, explicitEpoch)
    ensures Centre(par1, explicitEpoch).Success? ==>
              var c := Centre(par1, explicitEpoch).value;
              Centre(par2, explicitEpoch) == Success(c.(pars := par2[c.key := c.pars[c.key]]))
  {
    SameInputs(par1, par2, explicitEpoch);
    if Centre(par1, explicitEpoch).Success? {
      SameCentring(par1, par2, explicitEpoch, Centre(par1, explicitEpoch).value);
    }
  }

  lemma SameInputs(par1: map<string, Value>, par2: map<string, Value>, explicitEpoch: Option<real>)
    requires SameAt(par1, par2, "START") && SameAt(par1, par2, "FINISH")
    requires SameAt(par1, par2, "PB") && SameAt(par1, par2, "FB0")
    ensures ResolveTarget(par1, explicitEpoch) == ResolveTarget(par2, explicitEpoch)
    ensures ResolvePeriod(par1) == ResolvePeriod(par2)
  {
  }

  lemma SameCentring(par1: map<string, Value>, par2: map<string, Value>, explicitEpoch: Option<real>,
                     c: Centred)
    requires ResolveTarget(par1, explicitEpoch) == ResolveTarget(par2, explicitEpoch)
    requires ResolvePeriod(par1) == ResolvePeriod(par2)
    requires EpochKey(par1) == EpochKey(par2) && SameAt(par1, par2, EpochKey(par1))
    requires Centre(par1, explicitEpoch) == Success(c)
    ensures Centre(par2, explicitEpoch) == Success(c.(pars := par2[c.key := c.pars[c.key]]))
  {
    assert par2[c.key] == par1[c.key];
    assert c.pars[c.key] == Num(Advance(par2[c.key].x, c.norbs, c.pb));
  }

  /** A table that gives the orbit as a frequency `FB0`, with no `PB`,
      centres exactly like the same table with `PB = 1/FB0/86400` added: the
      same outcome, and on success the same result apart from that `PB`. */
  lemma PeriodSourceEquivalence(par1: map<string, Value>, explicitEpoch: Option<real>, f: real)
    requires "PB" !in par1 && "FB0" in par1 && par1["FB0"] == Num(f) && f != 0.0
    ensures var par2 := par1["PB" := Num(1.0 / f / SecondsPerDay)];
            ResolvePeriod(par2) == ResolvePeriod(par1) &&
            (Centre(par1, explicitEpoch).Failure? ==>
               Centre(par2, explicitEpoch) == Centre(par1, explicitEpoch)) &&
            (Centre(par1, explicitEpoch).Success? ==>
               var c := Centre(par1, explicitEpoch).value;
               Centre(par2, explicitEpoch) == Success(c.(pars := c.pars["PB" := Num(1.0 / f / SecondsPerDay)])))
  {
    var pb := Num(1.0 / f / SecondsPerDay);
    var par2 := par1["PB" := pb];
    assert ResolveTarget(par2, explicitEpoch) == ResolveTarget(par1, explicitEpoch);
    assert EpochKey(par2) == EpochKey(par1);
    if Centre(par1, explicitEpoch).Success? {
      var c := Centre(par1, explicitEpoch).value;
      var moved := c.pars[c.key];
      assert par2[c.key := moved] == c.pars["PB" := pb];
    }
  }
}

=== FILE: decimal_facts.dfy ===
/** What the decimal grammar guarantees: whole-number tokens, exact
    fractions, signs, and the interchangeable exponent markers. */
module DecimalFacts {
  import opened Wrappers
  import opened DecimalText

  lemma AllDigitsAppend(a: string, b: string)
    requires AllDigits(a) && AllDigits(b)
    ensures AllDigits(a + b)
  {
    forall i | 0 <= i < |a + b| ensures IsDigit((a + b)[i]) {
      if i >= |a| { assert (a + b)[i] == b[i - |a|]; }
    }
  }

  /** Appending digits shifts the value left by their count. */
  lemma {:induction false} DigitsValueAppend(a: string, b: string)
    requires AllDigits(a) && AllDigits(b)
    ensures AllDigits(a + b)
    ensures DigitsValue(a + b) == DigitsValue(a) * Pow10(|b|) + DigitsValue(b)
    decreases |b|
  {
    AllDigitsAppend(a, b);
    if b != [] {
      var b' := b[..|b| - 1];
      assert (a + b)[..|a + b| - 1] == a + b';
      DigitsValueAppend(a, b');
    } else {
      assert a + b == a;
    }
  }

  /** The first marker position is determined by its two defining facts. */
  lemma IndexOfIs(s: string, a: char, b: char, k: nat)
    requires k <= |s|
    requires forall i :: 0 <= i < k ==> s[i] != a && s[i] != b
    requires k < |s| ==> s[k] == a || s[k] == b
    ensures IndexOf(s, a, b) == k
  {
  }

  lemma MantissaWithPoint(a: string, b: string)
    requires AllDigits(a) && AllDigits(b) && |a| + |b| > 0
    ensures AllDigits(a + b)
    ensures ParseMantissa(a + "." + b) == Some(Literal(false, DigitsValue(a + b), -|b|))
  {
    var s := a + "." + b;
    assert s[|a|] == '.';
    assert forall i :: 0 <= i < |a| ==> s[i] == a[i];
    IndexOfIs(s, '.', '.', |a|);
    assert s[..|a|] == a;
    assert s[|a| + 1..] == b;
    AllDigitsAppend(a, b);
    MantissaSplit(s, a, b);
  }

  lemma MantissaSplit(m: string, a: string, b: string)
    requires AllDigits(a) && AllDigits(b) && |a| + |b| > 0
    requires AllDigits(a + b)
    requires IndexOf(m, '.', '.') == |a| < |m|
    requires m[..|a|] == a && m[|a|+1..] == b
    ensures ParseMantissa(m) == Some(Literal(false, DigitsValue(a + b), -|b|))
  {
    var p := IndexOf(m, '.', '.');
    assert m[..p] + m[p + 1..] == a + b;
  }

  /** Without sign and exponent marker a literal is just its mantissa. */
  lemma PlainMantissa(s: string)
    requires s == [] || !IsSign(s[0])
    requires IndexOf(s, 'e', 'E') == |s|
    ensures ParseLiteral(s) == ParseMantissa(s)
  {
    UnsignedWithoutMarker(s);
  }

  lemma UnsignedWithoutMarker(body: string)
    requires IndexOf(body, 'e', 'E') == |body|
    ensures ParseUnsigned(body) == ParseMantissa(body)
  {
    assert body[..|body|] == body;
    var m := ParseMantissa(body);
    if m.Some? {
      assert m.value.(exponent := m.value.exponent + 0) == m.value;
    }
  }

  /** A token `I.F` (either side may be empty, not both) is kept exactly:
      its coefficient is all of its digits and its exponent is minus the
      number of fraction digits, so no digit is lost or rounded. */
  lemma PointLiteral(a: string, b: string)
    requires AllDigits(a) && AllDigits(b) && |a| + |b| > 0
    ensures AllDigits(a + b)
    ensures ParseLiteral(a + "." + b) == Some(Literal(false, DigitsValue(a + b), -|b|))
  {
    var s := a + "." + b;
    assert forall i :: 0 <= i < |s| ==> s[i] == '.' || IsDigit(s[i]) by {
      forall i | 0 <= i < |s| ensures s[i] == '.' || IsDigit(s[i]) {
        if i < |a| { assert s[i] == a[i]; }
        else if i > |a| { assert s[i] == b[i - |a| - 1]; }
      }
    }
    IndexOfIs(s, 'e', 'E', |s|);
    PlainMantissa(s);
    MantissaWithPoint(a, b);
  }

  /** ...and that literal denotes I + F / 10^|F|. */
  lemma PointArithmetic(a: string, b: string)
    requires AllDigits(a) && AllDigits(b)
    ensures AllDigits(a + b)
    ensures Value(Literal(false, DigitsValue(a + b), -|b|)) ==
      DigitsValue(a) as real + DigitsValue(b) as real / Pow10(|b|) as real
  {
    DigitsValueAppend(a, b);
    ScaleDown(DigitsValue(a), DigitsValue(b), |b|, DigitsValue(a + b));
  }

  lemma ScaleDown(x: nat, y: nat, n: nat, v: nat)
    requires v == x * Pow10(n) + y
    ensures Value(Literal(false, v, -(n as int))) == x as real + y as real / Pow10(n) as real
  {
    var q := Pow10(n) as real;
    assert Scale(-(n as int)) == 1.0 / q;
    assert v as real == x as real * q + y as real;
  }

  /** A leading minus negates the value of an unsigned literal and leaves
      its validity unchanged. */
  lemma NegativeValue(s: string)
    requires s == [] || !IsSign(s[0])
    ensures ParseDecimal("-" + s).Some? <==> ParseDecimal(s).Some?
    ensures ParseDecimal(s).Some? ==> ParseDecimal("-" + s).value == -ParseDecimal(s).value
  {
    NegatedLiteral(s);
    if ParseLiteral(s).Some? {
      NegatedValue(ParseLiteral(s).value);
    }
  }

  /** A leading plus leaves both the validity and the value unchanged. */
  lemma PositiveValue(s: string)
    requires s == [] || !IsSign(s[0])
    ensures ParseDecimal("+" + s) == ParseDecimal(s)
  {
  }

  lemma NegatedLiteral(s: string)
    requires s == [] || !IsSign(s[0])
    ensures ParseLiteral(s).Some? ==> !ParseLiteral(s).value.negative
    ensures ParseLiteral("-" + s) ==
      if ParseLiteral(s).Some? then Some(ParseLiteral(s).value.(negative := true)) else None
  {
    assert ("-" + s)[1..] == s;
  }

  lemma NegatedValue(l: Literal)
    requires !l.negative
    ensures Value(l.(negative := true)) == -Value(l)
  {
  }

  /** The two exponent markers are interchangeable after normalisation:
      tokens that differ only by `D` against `E` normalise to the same text. */
  lemma MarkersInterchangeable(s: string, t: string)
    requires |s| == |t|
    requires forall i :: 0 <= i < |s| ==>
      s[i] == t[i] || (s[i] in "DE" && t[i] in "DE")
    ensures Normalise(s) == Normalise(t)
  {
    var ns, nt := Normalise(s), Normalise(t);
    forall i | 0 <= i < |s| ensures ns[i] == nt[i] {
      if s[i] != t[i] {
        assert s[i] == 'D' || s[i] == 'E';
        assert t[i] == 'D' || t[i] == 'E';
      }
    }
  }

  /** Normalised text contains no `D`, so normalising twice changes nothing. */
  lemma NormaliseIdempotent(s: string)
    ensures Normalise(Normalise(s)) == Normalise(s)
  {
  }

  /** A `D` exponent marker reads as `E`: normalising `M D X` gives `M E X`
      whenever mantissa and exponent hold no other `D`. */
  lemma LegacyExponent(m: string, x: string)
    requires 'D' !in m && 'D' !in x
    ensures Normalise(m + "D" + x) == m + "E" + x
    ensures ParseDecimal(Normalise(m + "D" + x)) == ParseDecimal(m + "E" + x)
  {
    var s, t := m + "D" + x, m + "E" + x;
    forall i | 0 <= i < |s| ensures Normalise(s)[i] == t[i] {
      if i < |m| {
        assert s[i] == m[i] == t[i];
      } else if i > |m| {
        assert s[i] == x[i - |m| - 1] == t[i];
      }
    }
  }

  /** One more power of ten is ten times as much. */
  lemma ScaleSucc(e: int, e1: int)
    requires e1 == e + 1
    ensures Scale(e1) == 10.0 * Scale(e)
  {
    if e < 0 {
      var p := Pow10(-e1) as real;
      assert Pow10(-e) as real == 10.0 * p;
      TenthReciprocal(p);
    }
  }

  lemma TenthReciprocal(p: real)
    requires p > 0.0
    ensures 1.0 / p == 10.0 * (1.0 / (10.0 * p))
  {
  }

  /** Powers of ten add their exponents: 10^(a+b) = 10^a x 10^b. */
  lemma ScaleAdd(a: int, b: int)
    ensures Scale(a + b) == Scaled(Scale(a), b)
  {
    ScaleSum(a, b, a + b);
  }

  lemma {:induction false} ScaleSum(a: int, b: int, c: int)
    requires c == a + b
    ensures Scale(c) == Scaled(Scale(a), b)
    decreases if b < 0 then -b else b
  {
    if b > 0 {
      ScaleSum(a, b - 1, c - 1);
      ScaleSucc(c - 1, c);
      ScaleSucc(b - 1, b);
      TenfoldStep(Scale(a), b - 1, b, Scale(c - 1), Scale(c));
    } else if b < 0 {
      ScaleSum(a, b + 1, c + 1);
      ScaleSucc(c, c + 1);
      ScaleSucc(b, b + 1);
      TenfoldStep(Scale(a), b, b + 1, Scale(c), Scale(c + 1));
    } else {
      assert Scale(b) == 1.0;
    }
  }

  /** One more power of ten on one side is ten times as much on the other. */
  lemma TenfoldStep(x: real, e: int, e1: int, p: real, p1: real)
    requires Scale(e1) == 10.0 * Scale(e) && p1 == 10.0 * p
    ensures p == Scaled(x, e) <==> p1 == Scaled(x, e1)
  {
  }

  /** Adding e to a literal's exponent multiplies its value by 10^e. */
  lemma {:induction false} ShiftedValue(l: Literal, e: int)
    ensures Value(l.(exponent := l.exponent + e)) == Scaled(Value(l), e)
  {
    ScaleAdd(l.exponent, e);
    Associate(l.negative, l.coefficient as real, Scale(l.exponent), e, Scale(l.exponent + e),
              Value(l), Value(l.(exponent := l.exponent + e)));
  }

  lemma Associate(negative: bool, c: real, x: real, e: int, xy: real, before: real, after: real)
    requires xy == Scaled(x, e)
    requires before == if negative then -(c * x) else c * x
    requires after == if negative then -(c * xy) else c * xy
    ensures after == Scaled(before, e)
  {
  }

  /** An exponent scales the mantissa by a power of ten: for an unsigned
      mantissa `m` without a marker, `m E x` (or `m e x`) is numeric exactly
      when `m` is a number and `x` an exponent, and is then worth m x 10^x. */
  lemma {:induction false} ExponentValue(m: string, marker: char, x: string)
    requires marker == 'e' || marker == 'E'
    requires m == [] || !IsSign(m[0])
    requires 'e' !in m && 'E' !in m
    ensures ParseDecimal(m + [marker] + x).Some? <==>
              ParseDecimal(m).Some? && ParseExponent(x).Some?
    ensures ParseDecimal(m + [marker] + x).Some? ==>
              ParseDecimal(m + [marker] + x).value == Scaled(ParseDecimal(m).value, ParseExponent(x).value)
  {
    var s := m + [marker] + x;
    ExponentLiteral(m, marker, x);
    DecimalOfLiteral(s);
    DecimalOfLiteral(m);
    if ParseLiteral(m).Some? && ParseExponent(x).Some? {
      ShiftedValue(ParseLiteral(m).value, ParseExponent(x).value);
    }
  }

  lemma DecimalOfLiteral(s: string)
    ensures ParseDecimal(s).Some? <==> ParseLiteral(s).Some?
    ensures ParseLiteral(s).Some? ==> ParseDecimal(s).value == Value(ParseLiteral(s).value)
  {
  }

  /** The literal of `m E x` is m's literal with x added to its exponent. */
  lemma ExponentLiteral(m: string, marker: char, x: string)
    requires marker == 'e' || marker == 'E'
    requires m == [] || !IsSign(m[0])
    requires 'e' !in m && 'E' !in m
    ensures ParseLiteral(m + [marker] + x) ==
              if ParseLiteral(m).Some? && ParseExponent(x).Some? then
                Some(ParseLiteral(m).value.(exponent := ParseLiteral(m).value.exponent + ParseExponent(x).value))
              else None
  {
    MarkerSplit(m, marker, x);
    IndexOfIs(m, 'e', 'E', |m|);
    PlainMantissa(m);
  }

  /** Where `m E x` splits: at the marker, into `m` and `x`, unsigned. */
  lemma MarkerSplit(m: string, marker: char, x: string)
    requires marker == 'e' || marker == 'E'
    requires m == [] || !IsSign(m[0])
    requires 'e' !in m && 'E' !in m
    ensures var s := m + [marker] + x;
            IndexOf(s, 'e', 'E') == |m| && s[..|m|] == m && s[|m| + 1..] == x && !IsSign(s[0])
  {
    var s := m + [marker] + x;
    assert forall i :: 0 <= i < |m| ==> s[i] == m[i];
    IndexOfIs(s, 'e', 'E', |m|);
    assert s[..|m|] == m && s[|m| + 1..] == x;
    assert !IsSign(s[0]) by {
      if m == [] { assert s[0] == marker; }
    }
  }

  /** The characters a decimal token is made of. */
  predicate IsNumberChar(c: char) {
    IsDigit(c) || IsSign(c) || c == '.' || c == 'e' || c == 'E'
  }

  /** A token `Decimal` accepts is made of digits, signs, points and
      exponent markers only, and holds at least one digit. */
  lemma NumericTokenShape(s: string)
    requires IsNumeric(s)
    ensures forall i :: 0 <= i < |s| ==> IsNumberChar(s[i])
    ensures exists i :: 0 <= i < |s| && IsDigit(s[i])
  {
    if |s| > 0 && IsSign(s[0]) {
      var u := s[1..];
      var j := UnsignedShape(u);
      assert IsDigit(s[j + 1]);
      forall i | 0 < i < |s| ensures IsNumberChar(s[i]) {
        assert s[i] == u[i - 1];
      }
    } else {
      var j := UnsignedShape(s);
      assert IsDigit(s[j]);
    }
  }

  /** The shape of an unsigned literal; `j` is the position of a digit. */
  lemma UnsignedShape(b: string) returns (j: nat)
    requires ParseUnsigned(b).Some?
    ensures forall i :: 0 <= i < |b| ==> IsNumberChar(b[i])
    ensures j < |b| && IsDigit(b[j])
  {
    var k := IndexOf(b, 'e', 'E');
    var m := b[..k];
    j := MantissaShape(m);
    assert b[j] == m[j];
    forall i | 0 <= i < |b| ensures IsNumberChar(b[i]) {
      if i < k {
        assert b[i] == m[i];
      } else if i > k {
        var t := b[k + 1..];
        assert b[i] == t[i - k - 1];
        if |t| > 0 && IsSign(t[0]) && i - k - 1 > 0 {
          assert t[i - k - 1] == t[1..][i - k - 2];
        }
      }
    }
  }

  /** The shape of a mantissa; `j` is the position of a digit. */
  lemma MantissaShape(m: string) returns (j: nat)
    requires ParseMantissa(m).Some?
    ensures forall i :: 0 <= i < |m| ==> IsDigit(m[i]) || m[i] == '.'
    ensures j < |m| && IsDigit(m[j])
  {
    var p := IndexOf(m, '.', '.');
    var intPart := m[..p];
    var fracPart := if p < |m| then m[p + 1..] else "";
    forall i | 0 <= i < |m| ensures IsDigit(m[i]) || m[i] == '.' {
      if i < p {
        assert m[i] == intPart[i];
      } else if i > p {
        assert m[i] == fracPart[i - p - 1];
      }
    }
    if |intPart| > 0 {
      j := 0;
      assert m[0] == intPart[0];
    } else {
      j := p + 1;
      assert m[j] == fracPart[0];
    }
  }

  /** `1.23E-5` is kept as the literal 123 x 10^-7. */
  lemma ExampleLiteral()
    ensures ParseLiteral("1.23E-5") == Some(Literal(false, 123, -7))
  {
    var s := "1.23E-5";
    IndexOfIs(s, 'e', 'E', 4);
    assert s[..4] == "1.23" && s[5..] == "-5";
    ExampleExponent();
    ExampleMantissa();
  }

  lemma ExampleExponent()
    ensures ParseExponent("-5") == Some(-5)
  {
    assert "-5"[1..] == "5";
    assert DigitsValue("5") == 5;
  }

  lemma ExampleMantissa()
    ensures ParseMantissa("1.23") == Some(Literal(false, 123, -2))
  {
    MantissaWithPoint("1", "23");
    assert "1" + "." + "23" == "1.23";
    assert "1" + "23" == "123";
    ExampleDigits();
  }

  lemma ExampleDigits()
    ensures DigitsValue("123") == 123
  {
    assert "123"[..2] == "12";
    assert "12"[..1] == "1";
    assert "1"[..0] == "";
  }
}

=== FILE: decimal_text.dfy ===
/** Recognising and valuing decimal tokens the way `Decimal(s)` does for the
    plain ASCII forms: optional sign, digits with an optional point, an
    optional `e`/`E` exponent. Values are exact rationals (`real`). */
module DecimalText {
  import opened Wrappers

  predicate IsDigit(c: char) {
    '0' <= c <= '9'
  }

  predicate AllDigits(s: string) {
    forall i :: 0 <= i < |s| ==> IsDigit(s[i])
  }

  /** `str.isdigit()` on ASCII text: non-empty and digits only. */
  predicate IsDigitString(s: string) {
    |s| > 0 && AllDigits(s)
  }

  /** The natural number a digit string denotes. */
  function DigitsValue(s: string): nat
    requires AllDigits(s)
    decreases |s|
  {
    if s == [] then 0
    else DigitsValue(s[..|s| - 1]) * 10 + (s[|s| - 1] as int - '0' as int)
  }

  function Pow10(e: nat): (p: nat)
    ensures p > 0
  {
    if e == 0 then 1 else 10 * Pow10(e - 1)
  }

  /** Ten to an integer power, as an exact rational. */
  function Scale(e: int): (r: real)
    ensures r > 0.0
  {
    if e >= 0 then Pow10(e) as real else 1.0 / Pow10(-e) as real
  }

  /** Position of the first character equal to `a` or `b`, or `|s|`. */
  function IndexOf(s: string, a: char, b: char): (k: nat)
    ensures k <= |s|
    ensures forall i :: 0 <= i < k ==> s[i] != a && s[i] != b
    ensures k < |s| ==> s[k] == a || s[k] == b
  {
    if s == [] || s[0] == a || s[0] == b then 0 else 1 + IndexOf(s[1..], a, b)
  }

  predicate IsSign(c: char) {
    c == '+' || c == '-'
  }

  /** The exponent after the marker: an optional sign and at least one digit. */
  function ParseExponent(t: string): (r: Option<int>)
    ensures r.Some? <==>
      (if |t| > 0 && IsSign(t[0]) then IsDigitString(t[1..]) else IsDigitString(t))
    ensures r.Some? && |t| > 0 && IsSign(t[0]) ==>
      r.value == (if t[0] == '-' then -1 else 1) * DigitsValue(t[1..])
    ensures r.Some? && (|t| == 0 || !IsSign(t[0])) ==> r.value == DigitsValue(t)
  {
    if |t| > 0 && IsSign(t[0]) then
      if IsDigitString(t[1..]) then
        Some(if t[0] == '-' then -(DigitsValue(t[1..]) as int) else DigitsValue(t[1..]))
      else None
    else if IsDigitString(t) then Some(DigitsValue(t))
    else None
  }

  /** `v` times ten to the power `e`. */
  function Scaled(v: real, e: int): real {
    v * Scale(e)
  }

  /** A decimal literal as `Decimal` keeps it: a sign, an integer
      coefficient (all the digits, the point removed) and a power of ten. */
  datatype Literal = Literal(negative: bool, coefficient: nat, exponent: int)

  /** The exact rational a literal denotes. */
  function Value(l: Literal): real {
    var magnitude := l.coefficient as real * Scale(l.exponent);
    if l.negative then -magnitude else magnitude
  }

  /** An unsigned mantissa `I.F` or `I` (digits on at least one side of the
      point): its coefficient is I and F read as one digit string, its
      exponent minus the number of fraction digits. */
  function ParseMantissa(m: string): Option<Literal> {
    var p := IndexOf(m, '.', '.');
    var intPart := m[..p];
    var fracPart := if p < |m| then m[p + 1..] else "";
    if AllDigits(intPart) && AllDigits(fracPart) && |intPart| + |fracPart| > 0 then
      Some(Literal(false, DigitsValue(intPart + fracPart), -|fracPart|))
    else None
  }

  /** An unsigned literal: a mantissa, then optionally an exponent marker
      `e`/`E` and an exponent that shifts the mantissa's. */
  function ParseUnsigned(body: string): Option<Literal> {
    var k := IndexOf(body, 'e', 'E');
    var mantissa := ParseMantissa(body[..k]);
    var exponent := if k < |body| then ParseExponent(body[k + 1..]) else Some(0);
    if mantissa.Some? && exponent.Some? then
      Some(mantissa.value.(exponent := mantissa.value.exponent + exponent.value))
    else None
  }

  /** The literal `Decimal(s)` builds, or None where it raises InvalidOperation. */
  function ParseLiteral(s: string): Option<Literal> {
    if |s| > 0 && IsSign(s[0]) then
      var u := ParseUnsigned(s[1..]);
      if u.Some? then Some(u.value.(negative := s[0] == '-')) else None
    else ParseUnsigned(s)
  }

  /** The exact value of `s` read as a decimal number, if it is one. A
      token `isdigit()` accepts is one, worth its digits read in base ten. */
  function ParseDecimal(s: string): (r: Option<real>)
    ensures IsDigitString(s) ==> r == Some(DigitsValue(s) as real)
  {
    DigitLiteral(s);
    var l := ParseLiteral(s);
    if l.Some? then Some(Value(l.value)) else None
  }

  /** A digit string is its own mantissa, with exponent zero. */
  lemma DigitLiteral(s: string)
    ensures IsDigitString(s) ==> ParseLiteral(s) == Some(Literal(false, DigitsValue(s), 0))
  {
    if IsDigitString(s) {
      assert !IsSign(s[0]);
      assert IndexOf(s, 'e', 'E') == |s|;
      assert IndexOf(s, '.', '.') == |s|;
      assert s[..|s|] == s && s + "" == s;
    }
  }

  /** `is_numeric`: whether `Decimal(s)` succeeds. The empty text is not
      numeric, and every digit string is. */
  predicate IsNumeric(s: string)
    ensures IsNumeric(s) ==> s != []
    ensures IsDigitString(s) ==> IsNumeric(s)
  {
    ParseDecimal(s).Some?
  }

  /** `s.replace('D', 'E')`: the legacy Fortran exponent marker becomes the
      standard one; every other character is kept. */
  function Normalise(s: string): (r: string)
    ensures |r| == |s|
    ensures forall i :: 0 <= i < |s| ==> r[i] == (if s[i] == 'D' then 'E' else s[i])
  {
    if s == [] then "" else [if s[0] == 'D' then 'E' else s[0]] + Normalise(s[1..])
  }
}

=== FILE: par_table.dfy ===
/** `read_par` (centre_binary_epochs.py:13-53): one pass over the lines
    builds the name-to-value table, keeps every original line, and notes
    the index of the last `T0`/`TASC` line. */
module ParTable {
  import opened Wrappers
  import opened Tokens
  import opened ParamLine

  datatype ParFile = ParFile(par: map<string, Value>, originalLines: seq<string>, epochLine: Option<nat>)

  /** The IndexError a one-token line raises, with that line's 0-based index. */
  datatype ReadError = MissingValueAt(lineNumber: nat)

  function ErrKey(name: string): string { name + "_ERR" }

  function TypeKey(name: string): string { name + "_TYPE" }

  predicate IsEpochName(name: string) {
    name == "T0" || name == "TASC"
  }

  /** The keys one parsed line writes: the value under its name, the
      uncertainty under `name_ERR` only when it is present and nonzero (a
      zero Decimal is falsy), and the kind under `name_TYPE` always. */
  function Entries(rec: ParamRecord): (m: map<string, Value>)
    ensures rec.name in m && m[rec.name] == rec.value
    ensures TypeKey(rec.name) in m && m[TypeKey(rec.name)] == Str([rec.kind.Code()])
    ensures ErrKey(rec.name) in m <==> rec.err.Some? && rec.err.value != 0.0
    ensures ErrKey(rec.name) in m ==> m[ErrKey(rec.name)] == Num(rec.err.value)
    ensures forall k :: k in m ==> k == rec.name || k == ErrKey(rec.name) || k == TypeKey(rec.name)
  {
    var withValue := map[rec.name := rec.value];
    var withErr := if rec.err.Some? && rec.err.value != 0.0
                   then withValue[ErrKey(rec.name) := Num(rec.err.value)] else withValue;
    assert |TypeKey(rec.name)| == |ErrKey(rec.name)| + 1 == |rec.name| + 5;
    withErr[TypeKey(rec.name) := Str([rec.kind.Code()])]
  }

  /** The entries a line's outcome writes: none unless it is parsed. */
  function OutcomeEntries(o: LineOutcome): map<string, Value> {
    match o
    case Parsed(rec) => Entries(rec)
    case _ => map[]
  }

  /** The entries a line writes. */
  function LineEntries(line: string): map<string, Value> {
    OutcomeEntries(ParseLine(line))
  }

  /** Whether an outcome is a parsed line naming `T0` or `TASC`. */
  predicate IsEpochOutcome(o: LineOutcome) {
    o.Parsed? && IsEpochName(o.rec.name)
  }

  predicate IsEpochLine(line: string) {
    IsEpochOutcome(ParseLine(line))
  }

  /** How each line is classified, in order. */
  function Outcomes(lines: seq<string>): (os: seq<LineOutcome>)
    ensures |os| == |lines| && forall i :: 0 <= i < |lines| ==> os[i] == ParseLine(lines[i])
  {
    seq(|lines|, i requires 0 <= i < |lines| => ParseLine(lines[i]))
  }

  /** One iteration of the loop, for the line at 0-based index `n` whose
      classification is `o`. */
  function Step(p: ParFile, line: string, o: LineOutcome, n: nat): Result<ParFile, ReadError> {
    var lines := p.originalLines + [line];
    match o
    case Skip => Success(p.(originalLines := lines))
    case MissingValue => Failure(MissingValueAt(n))
    case Parsed(rec) =>
      Success(ParFile(p.par + Entries(rec), lines,
                      if IsEpochName(rec.name) then Some(n) else p.epochLine))
  }

  /** One step in terms of the outcome's entries and whether it names an epoch. */
  lemma StepShape(p: ParFile, line: string, o: LineOutcome, n: nat)
    ensures Step(p, line, o, n).Failure? <==> o.MissingValue?
    ensures Step(p, line, o, n).Failure? ==> Step(p, line, o, n).error == MissingValueAt(n)
    ensures Step(p, line, o, n).Success? ==>
              Step(p, line, o, n).value
              == ParFile(p.par + OutcomeEntries(o), p.originalLines + [line],
                         if IsEpochOutcome(o) then Some(n) else p.epochLine)
  {
    if o.Skip? {
      assert p.par + map[] == p.par;
    }
  }

  /** The loop run over `lines`, each classified by the matching entry of `os`. */
  function ReadWith(lines: seq<string>, os: seq<LineOutcome>): Result<ParFile, ReadError>
    requires |os| == |lines|
    decreases |lines|
  {
    if lines == [] then Success(ParFile(map[], [], None))
    else
      var k := |lines| - 1;
      match ReadWith(lines[..k], os[..k])
      case Failure(e) => Failure(e)
      case Success(p) => Step(p, lines[k], os[k], k)
  }

  /** The table after reading all of `lines`, or the first error. */
  function ReadSpec(lines: seq<string>): Result<ParFile, ReadError> {
    ReadWith(lines, Outcomes(lines))
  }

  /** Writing a record's keys one after another, as the loop does, gives
      the table overlaid with `Entries`. */
  lemma StoreRecord(par: map<string, Value>, rec: ParamRecord)
    ensures par + Entries(rec)
         == (var p1 := par[rec.name := rec.value];
             var p2 := if rec.err.Some? && rec.err.value != 0.0
                       then p1[ErrKey(rec.name) := Num(rec.err.value)] else p1;
             p2[TypeKey(rec.name) := Str([rec.kind.Code()])])
  {
  }

  /** An error stops the read: no later line changes it. */
  lemma {:induction false} FailureSticks(lines: seq<string>, os: seq<LineOutcome>, j: nat)
    requires |os| == |lines| && j <= |lines| && ReadWith(lines[..j], os[..j]).Failure?
    ensures ReadWith(lines, os) == ReadWith(lines[..j], os[..j])
    decreases |lines|
  {
    if j < |lines| {
      var k := |lines| - 1;
      assert lines[..k][..j] == lines[..j] && os[..k][..j] == os[..j];
      FailureSticks(lines[..k], os[..k], j);
    } else {
      assert lines[..j] == lines && os[..j] == os;
    }
  }

  /** The loop of `read_par`, over the file's lines in order. */
  method ReadPar(lines: seq<string>) returns (r: Result<ParFile, ReadError>)
    ensures r == ReadSpec(lines)
  {
    ghost var os := Outcomes(lines);
    var par: map<string, Value> := map[];
    var originalLines: seq<string> := [];
    var t0TascLineNumber: Option<nat> := None;
    var lineNumber: nat := 0;
    for i := 0 to |lines|
      invariant lineNumber == i
      invariant ReadWith(lines[..i], os[..i]) == Success(ParFile(par, originalLines, t0TascLineNumber))
    {
      var line := lines[i];
      assert lines[..i + 1][..i] == lines[..i] && os[..i + 1][..i] == os[..i];
      assert os[i] == ParseLine(line);
      originalLines := originalLines + [line];
      var sline := Split(line);
      if Skipped(line) {
        lineNumber := lineNumber + 1;
        continue;
      }
      if |sline| < 2 {
        FailureSticks(lines, os, i + 1);
        assert lines[..|lines|] == lines && os[..|lines|] == os;
        return Failure(MissingValueAt(lineNumber));
      }
      var rec := ProcessParamLine(sline);
      StoreRecord(par, rec);
      par := par[rec.name := rec.value];
      if rec.err.Some? && rec.err.value != 0.0 {
        par := par[ErrKey(rec.name) := Num(rec.err.value)];
      }
      // the kind code is never empty, so `_TYPE` is always stored
      par := par[TypeKey(rec.name) := Str([rec.kind.Code()])];
      if IsEpochName(rec.name) {
        t0TascLineNumber := Some(lineNumber);
      }
      lineNumber := lineNumber + 1;
    }
    assert lines[..|lines|] == lines && os[..|lines|] == os;
    r := Success(ParFile(par, originalLines, t0TascLineNumber));
  }
}

/** What `read_par` promises about the table it returns. The induction is
    done once over any classification `os` of the lines (`ReadWith`), and
    then applied to the real one (`ReadSpec`). */
module ParTableFacts {
  import opened Wrappers
  import opened ParamLine
  import opened ParTable

  lemma {:induction false} KeepsLinesWith(lines: seq<string>, os: seq<LineOutcome>)
    requires |os| == |lines|
    ensures ReadWith(lines, os).Success? ==> ReadWith(lines, os).value.originalLines == lines
    decreases |lines|
  {
    if lines != [] {
      var k := |lines| - 1;
      KeepsLinesWith(lines[..k], os[..k]);
      assert lines[..k] + [lines[k]] == lines;
    }
  }

  lemma {:induction false} FailsAtFirstWith(lines: seq<string>, os: seq<LineOutcome>)
    requires |os| == |lines|
    ensures ReadWith(lines, os).Success? <==> forall i :: 0 <= i < |os| ==> !os[i].MissingValue?
    ensures ReadWith(lines, os).Failure? ==>
            var n := ReadWith(lines, os).error.lineNumber;
            n < |os| && os[n].MissingValue? && forall i :: 0 <= i < n ==> !os[i].MissingValue?
    decreases |lines|
  {
    if lines != [] {
      var k := |lines| - 1;
      FailsAtFirstWith(lines[..k], os[..k]);
      assert forall i :: 0 <= i < k ==> os[..k][i] == os[i];
    }
  }

  lemma {:induction false} EpochIndexWith(lines: seq<string>, os: seq<LineOutcome>)
    requires |os| == |lines| && ReadWith(lines, os).Success?
    ensures var e := ReadWith(lines, os).value.epochLine;
            (e.None? <==> forall i :: 0 <= i < |os| ==> !IsEpochOutcome(os[i])) &&
            (e.Some? ==> e.value < |os| && IsEpochOutcome(os[e.value]) &&
                         forall i :: e.value < i < |os| ==> !IsEpochOutcome(os[i]))
    decreases |lines|
  {
    if lines != [] {
      var k := |lines| - 1;
      EpochIndexWith(lines[..k], os[..k]);
      StepShape(ReadWith(lines[..k], os[..k]).value, lines[k], os[k], k);
      assert forall i :: 0 <= i < k ==> os[..k][i] == os[i];
    }
  }

  lemma {:induction false} LastWriteWith(lines: seq<string>, os: seq<LineOutcome>)
    requires |os| == |lines| && ReadWith(lines, os).Success?
    ensures var par := ReadWith(lines, os).value.par;
            forall key :: key in par <==> exists i :: 0 <= i < |os| && key in OutcomeEntries(os[i])
    ensures var par := ReadWith(lines, os).value.par;
            forall key, i :: 0 <= i < |os| && key in OutcomeEntries(os[i]) &&
                             (forall j :: i < j < |os| ==> key !in OutcomeEntries(os[j]))
                             ==> key in par && par[key] == OutcomeEntries(os[i])[key]
    decreases |lines|
  {
    if lines != [] {
      var k := |lines| - 1;
      var init := os[..k];
      LastWriteWith(lines[..k], init);
      StepShape(ReadWith(lines[..k], init).value, lines[k], os[k], k);
      assert forall i :: 0 <= i < k ==> init[i] == os[i];
      var par := ReadWith(lines, os).value.par;
      forall key | key in par
        ensures exists i :: 0 <= i < |os| && key in OutcomeEntries(os[i])
      {
        if key !in OutcomeEntries(os[k]) {
          var i :| 0 <= i < k && key in OutcomeEntries(init[i]);
          assert key in OutcomeEntries(os[i]);
        }
      }
      forall key, i | 0 <= i < |os| && key in OutcomeEntries(os[i]) &&
                      (forall j :: i < j < |os| ==> key !in OutcomeEntries(os[j]))
        ensures key in par && par[key] == OutcomeEntries(os[i])[key]
      {
        if i < k {
          assert key !in OutcomeEntries(os[k]);
          assert forall j :: i < j < k ==> key !in OutcomeEntries(init[j]);
        }
      }
    }
  }

  /** Every line, skipped or not, is kept in order. */
  lemma ReadKeepsLines(lines: seq<string>)
    ensures ReadSpec(lines).Success? ==> ReadSpec(lines).value.originalLines == lines
  {
    KeepsLinesWith(lines, Outcomes(lines));
  }

  /** The read fails exactly when some line has a name and no value, and
      then it reports the first such line. */
  lemma ReadFailsAtFirstMissing(lines: seq<string>)
    ensures ReadSpec(lines).Success? <==>
            forall i :: 0 <= i < |lines| ==> !ParseLine(lines[i]).MissingValue?
    ensures ReadSpec(lines).Failure? ==>
            var n := ReadSpec(lines).error.lineNumber;
            n < |lines| && ParseLine(lines[n]).MissingValue? &&
            forall i :: 0 <= i < n ==> !ParseLine(lines[i]).MissingValue?
  {
    FailsAtFirstWith(lines, Outcomes(lines));
  }

  /** The stored index is the last parsed line naming `T0` or `TASC`, and
      there is none exactly when no such line exists. */
  lemma EpochIndexIsLast(lines: seq<string>)
    requires ReadSpec(lines).Success?
    ensures var e := ReadSpec(lines).value.epochLine;
            (e.None? <==> forall i :: 0 <= i < |lines| ==> !IsEpochLine(lines[i])) &&
            (e.Some? ==> e.value < |lines| && IsEpochLine(lines[e.value]) &&
                         forall i :: e.value < i < |lines| ==> !IsEpochLine(lines[i]))
  {
    var os := Outcomes(lines);
    EpochIndexWith(lines, os);
    assert forall i :: 0 <= i < |lines| ==> (IsEpochOutcome(os[i]) <==> IsEpochLine(lines[i]));
  }

  /** A line that does not fail writes no entry exactly when it is skipped. */
  lemma NoEntriesIffSkipped(line: string)
    requires !ParseLine(line).MissingValue?
    ensures LineEntries(line) == map[] <==> Skipped(line)
  {
    if ParseLine(line).Parsed? {
      var rec := ParseLine(line).rec;
      assert rec.name in LineEntries(line);
    }
  }

  /** A key is in the table exactly when some parsed line writes it. */
  lemma KeysWritten(lines: seq<string>)
    requires ReadSpec(lines).Success?
    ensures var par := ReadSpec(lines).value.par;
            forall key :: key in par <==> exists i :: 0 <= i < |lines| && key in LineEntries(lines[i])
  {
    var os := Outcomes(lines);
    LastWriteWith(lines, os);
    assert forall i :: 0 <= i < |lines| ==> OutcomeEntries(os[i]) == LineEntries(lines[i]);
  }

  /** A key holds what the last line writing it wrote. */
  lemma LastWriteWins(lines: seq<string>)
    requires ReadSpec(lines).Success?
    ensures var par := ReadSpec(lines).value.par;
            forall key, i :: 0 <= i < |lines| && key in LineEntries(lines[i]) &&
                             (forall j :: i < j < |lines| ==> key !in LineEntries(lines[j]))
                             ==> key in par && par[key] == LineEntries(lines[i])[key]
  {
    var os := Outcomes(lines);
    LastWriteWith(lines, os);
    assert forall i :: 0 <= i < |lines| ==> OutcomeEntries(os[i]) == LineEntries(lines[i]);
  }

  /** `T0` or `TASC` is a key of an outcome's entries exactly when it names
      one of them: a side key always ends in `_ERR` or `_TYPE`. */
  lemma EpochKeyOfOutcome(o: LineOutcome)
    ensures ("T0" in OutcomeEntries(o) || "TASC" in OutcomeEntries(o)) <==> IsEpochOutcome(o)
  {
    if o.Parsed? {
      var name := o.rec.name;
      if |name| == 0 {
        assert ErrKey(name)[0] == '_' && TypeKey(name)[0] == '_';
      }
    }
  }

  /** The table has a `T0` or `TASC` key exactly when an index was stored:
      so the rewrite, which looks one of them up at that index, finds it. */
  lemma EpochKeyIffIndex(lines: seq<string>)
    requires ReadSpec(lines).Success?
    ensures var p := ReadSpec(lines).value;
            ("T0" in p.par || "TASC" in p.par) <==> p.epochLine.Some?
  {
    var os := Outcomes(lines);
    LastWriteWith(lines, os);
    EpochIndexWith(lines, os);
    forall i | 0 <= i < |os|
      ensures ("T0" in OutcomeEntries(os[i]) || "TASC" in OutcomeEntries(os[i])) <==> IsEpochOutcome(os[i])
    {
      EpochKeyOfOutcome(os[i]);
    }
  }

  /** Reading lines that differ at one index, where neither version of
      that line fails and both write only keys in `S`, succeeds or fails
      alike and gives the same table outside `S`. */
  lemma {:induction false} ReplaceOutcome(lines: seq<string>, os: seq<LineOutcome>, idx: nat,
                                          line: string, o: LineOutcome, S: set<string>)
    requires |os| == |lines| && idx < |lines|
    requires !os[idx].MissingValue? && !o.MissingValue?
    requires OutcomeEntries(os[idx]).Keys <= S && OutcomeEntries(o).Keys <= S
    ensures var r1 := ReadWith(lines, os);
            var r2 := ReadWith(lines[idx := line], os[idx := o]);
            (r1.Success? <==> r2.Success?) &&
            (r1.Success? ==> forall key :: key !in S ==>
                               (key in r1.value.par <==> key in r2.value.par) &&
                               (key in r1.value.par ==> r1.value.par[key] == r2.value.par[key]))
    decreases |lines|
  {
    var k := |lines| - 1;
    var lines2 := lines[idx := line];
    var os2 := os[idx := o];
    if idx == k {
      assert lines2[..k] == lines[..k] && os2[..k] == os[..k];
      var r := ReadWith(lines[..k], os[..k]);
      if r.Success? {
        StepShape(r.value, lines[k], os[k], k);
        StepShape(r.value, line, o, k);
      }
    } else {
      assert lines2[..k] == lines[..k][idx := line] && os2[..k] == os[..k][idx := o];
      ReplaceOutcome(lines[..k], os[..k], idx, line, o, S);
      var r1 := ReadWith(lines[..k], os[..k]);
      var r2 := ReadWith(lines2[..k], os2[..k]);
      if r1.Success? {
        StepShape(r1.value, lines[k], os[k], k);
        StepShape(r2.value, lines[k], os[k], k);
      }
    }
  }

  /** `ReplaceOutcome` for the lines themselves. */
  lemma ReplaceLine(lines: seq<string>, idx: nat, line: string, S: set<string>)
    requires idx < |lines|
    requires !ParseLine(lines[idx]).MissingValue? && !ParseLine(line).MissingValue?
    requires LineEntries(lines[idx]).Keys <= S && LineEntries(line).Keys <= S
    ensures var r1 := ReadSpec(lines);
            var r2 := ReadSpec(lines[idx := line]);
            (r1.Success? <==> r2.Success?) &&
            (r1.Success? ==> forall key :: key !in S ==>
                               (key in r1.value.par <==> key in r2.value.par) &&
                               (key in r1.value.par ==> r1.value.par[key] == r2.value.par[key]))
  {
    var os := Outcomes(lines);
    assert Outcomes(lines[idx := line]) == os[idx := ParseLine(line)];
    ReplaceOutcome(lines, os, idx, line, ParseLine(line), S);
  }
}

=== FILE: param_line.dfy ===
/** One line of a par file: the skip rules of `read_par` and
    `process_param_line` (centre_binary_epochs.py). */
module ParamLine {
  import opened Wrappers
  import opened Tokens
  import opened DecimalText

  /** A stored value: an exact decimal or the (normalised) raw text. */
  datatype Value = Num(x: real) | Str(s: string)

  /** The `p_type` tag: 'd' integer-like, 'e' other decimal, 's' string. */
  datatype Kind = IntegerLike | GeneralDecimal | Text {
    function Code(): char {
      match this
      case IntegerLike => 'd'
      case GeneralDecimal => 'e'
      case Text => 's'
    }
  }

  datatype ParamRecord = ParamRecord(name: string, value: Value, err: Option<real>, kind: Kind)

  /** Parameters recognised but not parsed; compared with the first token
      for equality, never as prefixes. */
  const Ignore: seq<string> := ["DMMODEL", "DMOFF", "DM_", "CM_", "CONSTRAIN", "JUMP", "NITS",
                                "NTOA", "CORRECT_TROPOSPHERE", "PLANET_SHAPIRO", "DILATEFREQ",
                                "TIMEEPH", "MODE", "TZRMJD", "TZRSITE", "TZRFRQ", "EPHVER",
                                "T2CMETHOD"]

  /** The trailing tokens that are fit flags, not uncertainties. */
  const FitFlags: seq<string> := ["0", "1"]

  /** The skip test of `read_par`: no tokens, a first character `#` or `C`
      (on the raw line, so `CLK` and `CHI2` lines are skipped too), or a
      first token on the ignore list. */
  predicate Skipped(line: string)
    ensures Skipped(line) <==>
      AllSpace(line) || line[0] == '#' || line[0] == 'C' || (Split(line) != [] && Split(line)[0] in Ignore)
  {
    SplitEmptyIffAllSpace(line);
    var t := Split(line);
    t == [] || line[0] == '#' || line[0] == 'C' || t[0] in Ignore
  }

  /** The name with the historical alias `E` for `ECC` resolved. */
  function Alias(name: string): (r: string)
    ensures name == "E" ==> r == "ECC"
    ensures name != "E" ==> r == name
  {
    if name == "E" then "ECC" else name
  }

  /** `process_param_line`: name, value, uncertainty and kind of a line's
      tokens. Reading `sline[1]` needs a second token. */
  function ProcessParamLine(sline: seq<string>): (r: ParamRecord)
    requires |sline| >= 2
    ensures r.name == Alias(sline[0])
    ensures r.kind == Text <==> !IsNumeric(Normalise(sline[1]))
    ensures r.kind == Text ==> r.value == Str(Normalise(sline[1]))
    ensures r.kind != Text ==> r.value.Num? && ParseDecimal(Normalise(sline[1])) == Some(r.value.x)
    ensures r.kind == IntegerLike <==> IsDigitString(sline[1])
    ensures r.err.Some? <==>
      |sline| >= 3 && sline[|sline| - 1] !in FitFlags && IsNumeric(Normalise(sline[|sline| - 1]))
    ensures r.err.Some? ==> ParseDecimal(Normalise(sline[|sline| - 1])) == Some(r.err.value)
  {
    var valStr := Normalise(sline[1]);
    NormalisedDigits(sline[1]);
    var val := ParseDecimal(valStr);
    var last := sline[|sline| - 1];
    var err := if |sline| >= 3 && last !in FitFlags then ParseDecimal(Normalise(last)) else None;
    if val.Some? then
      ParamRecord(Alias(sline[0]), Num(val.value), err, if IsDigitString(valStr) then IntegerLike else GeneralDecimal)
    else
      ParamRecord(Alias(sline[0]), Str(valStr), err, Text)
  }

  /** Normalising touches no digit, and a digit string has no `D`. */
  lemma NormalisedDigits(s: string)
    ensures IsDigitString(Normalise(s)) <==> IsDigitString(s)
  {
    if IsDigitString(s) {
      assert forall i :: 0 <= i < |s| ==> Normalise(s)[i] == s[i];
    }
    if IsDigitString(Normalise(s)) {
      forall i | 0 <= i < |s| ensures IsDigit(s[i]) {
        assert IsDigit(Normalise(s)[i]);
      }
    }
  }

  /** What one line contributes: nothing, a record, or the IndexError that
      `sline[1]` raises on a one-token line that is not skipped. */
  datatype LineOutcome = Skip | MissingValue | Parsed(rec: ParamRecord)

  function ParseLine(line: string): (o: LineOutcome)
    ensures o.Skip? <==> Skipped(line)
    ensures o.MissingValue? <==> !Skipped(line) && |Split(line)| < 2
    ensures o.Parsed? ==> |Split(line)| >= 2 && o.rec == ProcessParamLine(Split(line))
  {
    if Skipped(line) then Skip
    else if |Split(line)| < 2 then MissingValue
    else Parsed(ProcessParamLine(Split(line)))
  }
}

=== FILE: rewrite.dfy ===
/** `write_updated_par` (centre_binary_epochs.py:104-114): copy every
    original line, except that the line at the stored index becomes
    `KEY VALUE 1`. */
module Rewrite {
  import opened Wrappers
  import opened ParamLine
  import opened Centring

  /** The KeyError raised when neither `T0` nor `TASC` is in the table;
      `written` holds the lines already in the output file. */
  datatype WriteError = MissingEpochKey(written: seq<string>)

  /** How a table value is rendered in the output line. Decimal's own
      rendering (`str`) is the parameter `fmt`. */
  function Render(v: Value, fmt: real -> string): string {
    match v
    case Num(x) => fmt(x)
    case Str(s) => s
  }

  /** The replacement line, when the table has `T0` or `TASC`: the same
      choice of key as the centring makes. */
  function EpochLine(par: map<string, Value>, fmt: real -> string): (r: Option<string>)
    ensures r.Some? <==> "T0" in par || "TASC" in par
    ensures r.Some? ==> var key := EpochKey(par);
                        key in par && r.value == key + " " + Render(par[key], fmt) + " 1\n"
  {
    var param := EpochKey(par);
    if param in par then Some(param + " " + Render(par[param], fmt) + " 1\n") else None
  }

  /** `lines` with the line at `idx`, if any, replaced by `newLine`. */
  function Rewritten(lines: seq<string>, idx: Option<nat>, newLine: string): (out: seq<string>)
    ensures |out| == |lines|
    ensures forall i :: 0 <= i < |lines| && idx != Some(i) ==> out[i] == lines[i]
    ensures idx.Some? && idx.value < |lines| ==> out[idx.value] == newLine
  {
    seq(|lines|, i requires 0 <= i < |lines| => if idx == Some(i) then newLine else lines[i])
  }

  /** The lines written, or the KeyError with the lines written before it. */
  function WriteSpec(par: map<string, Value>, lines: seq<string>, idx: Option<nat>,
                     fmt: real -> string): (r: Result<seq<string>, WriteError>)
    ensures r.Failure? <==> idx.Some? && idx.value < |lines| && "T0" !in par && "TASC" !in par
    ensures r.Failure? ==> r.error.written == lines[..idx.value]
    ensures r.Success? ==> |r.value| == |lines| &&
                           forall i :: 0 <= i < |lines| && idx != Some(i) ==> r.value[i] == lines[i]
    ensures r.Success? && idx.Some? && idx.value < |lines| ==>
              r.value[idx.value] == EpochLine(par, fmt).value
  {
    if idx.Some? && idx.value < |lines| then
      match EpochLine(par, fmt)
      case None => Failure(MissingEpochKey(lines[..idx.value]))
      case Some(newLine) => Success(Rewritten(lines, idx, newLine))
    else Success(lines)
  }

  /** The loop of `write_updated_par`, emitting one line per original line. */
  method WriteUpdatedPar(par: map<string, Value>, originalLines: seq<string>,
                         t0TascLineNumber: Option<nat>, fmt: real -> string)
    returns (r: Result<seq<string>, WriteError>)
    ensures r == WriteSpec(par, originalLines, t0TascLineNumber, fmt)
  {
    var file: seq<string> := [];
    for i := 0 to |originalLines|
      invariant |file| == i
      invariant forall j :: 0 <= j < i && t0TascLineNumber != Some(j) ==> file[j] == originalLines[j]
      invariant t0TascLineNumber.Some? && t0TascLineNumber.value < i ==>
                  EpochLine(par, fmt).Some? && file[t0TascLineNumber.value] == EpochLine(par, fmt).value
    {
      if t0TascLineNumber == Some(i) {
        var param := EpochKey(par);
        if param !in par {
          assert file == originalLines[..i];
          return Failure(MissingEpochKey(file));
        }
        file := file + [param + " " + Render(par[param], fmt) + " 1\n"];
      } else {
        file := file + [originalLines[i]];
      }
    }
    var spec := WriteSpec(par, originalLines, t0TascLineNumber, fmt);
    assert spec.Success?;
    assert file == spec.value;
    return Success(file);
  }

  /** Without an index the output is the input. */
  lemma NoIndexNoChange(par: map<string, Value>, lines: seq<string>, fmt: real -> string)
    ensures WriteSpec(par, lines, None, fmt) == Success(lines)
  {
  }

  /** Replacing a line by itself changes nothing. */
  lemma RewriteSame(lines: seq<string>, idx: nat)
    requires idx < |lines|
    ensures Rewritten(lines, Some(idx), lines[idx]) == lines
  {
  }
}

=== FILE: tokens.dfy ===
/** Python's `str.split()` with no argument: the line is cut at runs of
    whitespace and empty pieces are dropped. */
module Tokens {

  /** The ASCII characters `str.isspace()` accepts: tab, line feed, vertical
      tab, form feed, carriage return, the four separators 0x1C-0x1F, space. */
  predicate IsSpace(c: char) {
    c == ' ' || ('\t' <= c <= '\r') || ('\U{1C}' <= c <= '\U{1F}')
  }

  predicate NoSpace(w: string) {
    forall i :: 0 <= i < |w| ==> !IsSpace(w[i])
  }

  predicate AllSpace(s: string) {
    forall i :: 0 <= i < |s| ==> IsSpace(s[i])
  }

  /** Length of the run of non-space characters at the front of `s`. */
  function WordLen(s: string): (n: nat)
    ensures n <= |s|
    ensures NoSpace(s[..n])
    ensures n == |s| || IsSpace(s[n])
  {
    if s == [] || IsSpace(s[0]) then 0 else 1 + WordLen(s[1..])
  }

  /** The whitespace-separated tokens of `s`, in order. */
  function Split(s: string): (r: seq<string>)
    ensures |r| <= |s|
    ensures forall k :: 0 <= k < |r| ==> r[k] != [] && NoSpace(r[k])
    decreases |s|
  {
    if s == [] then []
    else if IsSpace(s[0]) then Split(s[1..])
    else
      var n := WordLen(s);
      [s[..n]] + Split(s[n..])
  }

  /** The tokens joined by single spaces. */
  function Join(ws: seq<string>): string {
    if ws == [] then ""
    else if |ws| == 1 then ws[0]
    else ws[0] + " " + Join(ws[1..])
  }

  /** A line has no tokens exactly when it is whitespace only. */
  lemma {:induction false} SplitEmptyIffAllSpace(s: string)
    ensures Split(s) == [] <==> AllSpace(s)
    decreases |s|
  {
    if s != [] {
      if IsSpace(s[0]) {
        SplitEmptyIffAllSpace(s[1..]);
        assert AllSpace(s) <==> AllSpace(s[1..]) by {
          if AllSpace(s[1..]) {
            forall i | 0 <= i < |s| ensures IsSpace(s[i]) {
              if i > 0 { assert s[i] == s[1..][i - 1]; }
            }
          }
        }
      }
    }
  }

  lemma {:induction false} WordLenOfWord(w: string, s: string)
    requires w != [] && NoSpace(w)
    requires s == [] || IsSpace(s[0])
    ensures WordLen(w + s) == |w|
    decreases |w|
  {
    assert (w + s)[0] == w[0];
    assert (w + s)[1..] == w[1..] + s;
    if |w| > 1 {
      WordLenOfWord(w[1..], s);
    } else {
      assert w[1..] + s == s;
    }
  }

  /** A token followed by whitespace or by the end of the text is split off whole. */
  lemma SplitWord(w: string, s: string)
    requires w != [] && NoSpace(w)
    requires s == [] || IsSpace(s[0])
    ensures Split(w + s) == [w] + Split(s)
  {
    WordLenOfWord(w, s);
    assert (w + s)[..|w|] == w;
    assert (w + s)[|w|..] == s;
  }

  /** A leading space separates nothing. */
  lemma SplitSkipsSpace(s: string)
    ensures Split(" " + s) == Split(s)
  {
    assert (" " + s)[1..] == s;
  }

  /** Splitting undoes joining: tokens joined by spaces, followed by any
      trailing whitespace such as the line terminator, split back into
      exactly those tokens. */
  lemma {:induction false} SplitJoin(ws: seq<string>, tail: string)
    requires forall k :: 0 <= k < |ws| ==> ws[k] != [] && NoSpace(ws[k])
    requires AllSpace(tail)
    ensures Split(Join(ws) + tail) == ws
  {
    SplitEmptyIffAllSpace(tail);
    if ws == [] {
      assert Join(ws) + tail == tail;
    } else if |ws| == 1 {
      SplitWord(ws[0], tail);
    } else {
      var rest := Join(ws[1..]) + tail;
      assert Join(ws) + tail == ws[0] + (" " + rest);
      SplitWord(ws[0], " " + rest);
      SplitSkipsSpace(rest);
      SplitJoin(ws[1..], tail);
      assert ws == [ws[0]] + ws[1..];
    }
  }
}

=== FILE: wrappers.dfy ===
/** Option and Result, the two failure-carrying shapes the model uses for
    Python's `None` and for the exceptions the script lets escape. */
module Wrappers {

  datatype Option<+T> = None | Some(value: T)

  datatype Result<+R, +E> = Success(value: R) | Failure(error: E)
}
